=== FILE: README.md ===
# DataCollector, modelled in Dafny

A model of `DataCollector`, the JSoar class that samples a Soar agent's
performance counters and writes them as CSV rows. A host calls it as follows:

- `onStart` and `onStop` around each run of the agent;
- `onUpdateEvent` once per decision cycle;
- `collect(agent)` when `onUpdateEvent` answers true.

The class keeps four kinds of state: a sampling schedule, a pausable wall
clock, the `last*` counters it subtracts to turn cumulative readings into
per-interval deltas, and the PrintWriter around the bound OutputStream.

The model is one immutable record (`DataCollector.Collector`). Every public
operation is a pure transition on that record. The parts sit in one module
each:

| module | what it models |
|---|---|
| `JavaInt` | Java's 32-bit `int`, its wrap-around, and `/` and `%` rounded toward zero |
| `Sampling` | the `onUpdateEvent` decision in cycle mode and in elapsed-time mode |
| `PausableClock` | `offset`/`stopTime`, `onStart`, `onStop` and the `wall clock` column |
| `Deltas` | the agent readings, the `last*` fields, and the deltas and guarded rates of one row |
| `Schema` | the HEADER and FORMAT constants built by `addStat`, and `String.format` over `%s`/`%f`/`%d` |
| `Csv` | the PrintWriter (printed lines, flushed prefix), the settings field, the values of one row |
| `DataCollector` | the class: `reset`, `flush`, the setters, `onStart`, `onStop`, `onUpdateEvent`, `collect`, `isEnabled` |
| `Host` | any sequence of host calls, and what it keeps true of every PrintWriter |

Two slips in the class are modelled both as written and repaired (see
"## Findings"). `DataCollector.Build` selects between the two versions:

- `AsWritten`: the class exactly as written.
- `Corrected`: FORMAT without the two smem max-time conversions, HEADER
  without their two names, and line 505
  storing into `lastKmsecTime`.

`DataCollector.Collect` is the repaired `collect`. `DataCollector.CollectAsWritten`
is `collect` as the class writes it.

Where the class and its documentation disagree, the model follows the code:

- `onStart` always adds `now - stopTime` to the offset. When the clock was not
  stopped, `stopTime` is 0, so it adds `now` itself, not zero. See
  `PausableClock.OnStart`.
- The clock keeps running while stopped: `collect` computes `wall clock` as
  `now - offset` whatever `stopTime` is. Only the next `onStart` takes the pause
  out again. See `PausableClock.PausedClockKeepsRunning`.
- `count` is an `int`: `++count` wraps from 2147483647 to -2147483648.
- In cycle mode a period of 0 makes `count % periodCycles` throw
  ArithmeticException. `onUpdateEvent` has no catch, so the model answers
  `DivideByZero`.
- In elapsed-time mode a period of 0 or less is due on every armed call, not
  inert.
- Switching modes with `setPeriodCycles` / `setPeriodMillis` resets neither
  the counter nor the elapsed-time mark.
- `collect` updates `lastDc` before it returns early for a snapshot with no
  decision yet. It updates every `last*` field before `String.format` can
  throw, so a row lost to an exception still moves the kept counters.
- `reset` keeps the PrintWriter. A `collect` after `reset` appends to it
  without a second header or settings field. Only binding a stream other than
  the one currently bound starts a new PrintWriter. `setOutputStream` compares
  with the current stream alone, so binding back a stream bound earlier also
  starts a new PrintWriter on it. A second header and settings field then
  follow whatever the earlier PrintWriter flushed to that stream.
- The settings field goes on the first row printed to a PrintWriter, and only
  when that same call printed the header. A first `collect` that returns
  before the first decision prints the header but no row. That PrintWriter then
  never prints the settings field (`Host.EarlyFirstPassLosesSettings`).

The clock reading (`System.currentTimeMillis`), the formatted date of the
settings field and the agent's counters are parameters. The counters arrive as
one `Deltas.Snapshot` value. An OutputStream is an identity (a natural
number), because `setOutputStream` compares streams with `equals`. `isEnabled`
is the predicate `DataCollector.IsEnabled`.

## Model

| member | source | states |
|---|---|---|
| JavaInt.Wrap | src/main/java/edu/umich/soar/DataCollector.java:212 | the `int` value of an unbounded integer: congruent to it modulo 2^32, and equal to it when it is in range |
| JavaInt.Increment | src/main/java/edu/umich/soar/DataCollector.java:418 | `++count` adds one, except that 2147483647 wraps to -2147483648 |
| JavaInt.IncrementWrap | src/main/java/edu/umich/soar/DataCollector.java:418 | one `++count` on a count that is n truncated to 32 bits gives n + 1 truncated to 32 bits: `++` commutes with truncation |
| JavaInt.Quot | src/main/java/edu/umich/soar/DataCollector.java:524 | `long / long` rounds toward zero: the remainder is smaller than the divisor and has the dividend's sign |
| JavaInt.Rem | src/main/java/edu/umich/soar/DataCollector.java:426 | `count % periodCycles` is the remainder of the truncated quotient, and is zero exactly when the period divides the count |
| Sampling.Reset | src/main/java/edu/umich/soar/DataCollector.java:294-310 | `reset` zeroes the invocation counter and the elapsed-time mark, and keeps the mode and both periods |
| Sampling.SetPeriodCycles | src/main/java/edu/umich/soar/DataCollector.java:353-357 | cycle mode with the new period; the counter, the mark and the time period are kept |
| Sampling.SetPeriodMillis | src/main/java/edu/umich/soar/DataCollector.java:367-371 | elapsed-time mode with the new period; the counter, the mark and the cycle period are kept |
| Sampling.OnUpdate | src/main/java/edu/umich/soar/DataCollector.java:416-450 | the counter always advances. Disabled, the answer is false. In cycle mode the answer is due iff the period divides the new count, or DivideByZero when the period is 0. Elapsed mode arms on the first call; after that it is due iff a period has passed, and the mark then moves by exactly one period |
| Sampling.CycleCadence | src/main/java/edu/umich/soar/DataCollector.java:423-426 | with a nonzero period, for the first 2^31 - 1 calls from a zeroed counter (before `count` wraps), call i (counting from 1) is due exactly when a stream was bound and the period divides i, whatever the pattern of enabled and disabled calls |
| Sampling.CycleCadenceWrapped | src/main/java/edu/umich/soar/DataCollector.java:418-426 | with a nonzero period, for any number of calls from a zeroed counter, after n calls `count` holds n truncated to 32 bits, and call i is due exactly when a stream was bound and the period divides i truncated to 32 bits |
| Sampling.UpdatesKeepConfig | src/main/java/edu/umich/soar/DataCollector.java:416-450 | no sequence of `onUpdateEvent` calls changes the mode or either period |
| Sampling.ElapsedCadence | src/main/java/edu/umich/soar/DataCollector.java:428-445 | with a non-negative period, once armed, the mark sits exactly one period further for every sample asked for, however irregular the calls and whichever of them found no stream bound: the cadence does not drift, across enable/disable toggles too |
| PausableClock.WallClock | src/main/java/edu/umich/soar/DataCollector.java:570 | the `wall clock` column is the running time in milliseconds divided by 1000 |
| PausableClock.OnStart | src/main/java/edu/umich/soar/DataCollector.java:380-384 | after `onStart` the clock runs and reports at the restart what it reported at the stop; not stopped, the offset grows by `now` |
| PausableClock.OnStop | src/main/java/edu/umich/soar/DataCollector.java:393-397 | `onStop` records the stop instant and keeps the offset |
| PausableClock.ReplayAddsRunningTime | src/main/java/edu/umich/soar/DataCollector.java:380-397 | any sequence of start/stop pairs adds exactly the summed running time to the reading at the stop instant, so every pause is left out |
| PausableClock.ResumedClockExcludesPauses | src/main/java/edu/umich/soar/DataCollector.java:570 | after `reset`, runs and a restart, a sample reports the total running time plus the time since the restart |
| PausableClock.PausedClockKeepsRunning | src/main/java/edu/umich/soar/DataCollector.java:570 | a reading taken while stopped includes the pause so far |
| Deltas.PerUnit | src/main/java/edu/umich/soar/DataCollector.java:506 | a guarded rate: quotient times divisor is the numerator when the divisor is positive, otherwise the rate is 0 |
| Deltas.WmMean | src/main/java/edu/umich/soar/DataCollector.java:524 | `wm mean` is the truncated integer quotient of two longs widened to a double, and 0 unless decisions were made |
| Deltas.WmMeanTruncates | src/main/java/edu/umich/soar/DataCollector.java:524 | for -7 wmes over 2 decisions the column is -3.0: Java's `long / long` truncates toward zero |
| Deltas.Advance | src/main/java/edu/umich/soar/DataCollector.java:496-574 | repaired accounting: each delta plus its kept value is the reading, the kept values become the readings, and every rate is guarded by its divisor delta. The smem time column is the constant 0 of line 564, and the smem rate is its delta over `deltaDc` |
| Deltas.AdvanceAsWritten | src/main/java/edu/umich/soar/DataCollector.java:503-505 | as written, the kernel time lands in `lastSmemTimeMsec`, `lastKmsecTime` never moves, and the smem rate is minus the kernel time per decision |
| Deltas.AsWrittenDiffersOnlyInKernelStore | src/main/java/edu/umich/soar/DataCollector.java:505 | the two accountings agree on every column but the smem rate, and on every kept field but the kernel time |
| Deltas.ConsecutiveDeltas | src/main/java/edu/umich/soar/DataCollector.java:496-534 | the second of two consecutive samples reports the differences of the two snapshots, whatever was kept before |
| Deltas.DeltasAfterReset | src/main/java/edu/umich/soar/DataCollector.java:294-310 | after `reset` a sample's deltas are the full readings |
| Deltas.AsWrittenKernelIsCumulative | src/main/java/edu/umich/soar/DataCollector.java:503-505 | as written, after `reset` the kernel column of a run of samples is the agent's cumulative kernel time at each |
| Deltas.KernelColumnIsDelta | src/main/java/edu/umich/soar/DataCollector.java:503-504 | repaired, every kernel column after the first is the difference of consecutive cumulative readings |
| Deltas.KernelColumnExampleAsWritten | src/main/java/edu/umich/soar/DataCollector.java:505 | as written, samples of 1.0 s then 1.5 s of kernel time report 1.5 s on the second row |
| Deltas.KernelColumnExampleCorrected | src/main/java/edu/umich/soar/DataCollector.java:503-504 | repaired, the same samples report 0.5 s and a zero smem rate |
| Deltas.AsWrittenSmemRateNegative | src/main/java/edu/umich/soar/DataCollector.java:572-574 | as written, once decisions are made and kernel time is spent, the smem time per decision is negative; repaired it is 0 |
| Schema.AddStatsTerminates | src/main/java/edu/umich/soar/DataCollector.java:271-278 | `addStat` calls leave each builder holding exactly its parts, each followed by one comma |
| Schema.WrittenConversions | src/main/java/edu/umich/soar/DataCollector.java:231-263 | the static initializer adds twenty stats, whose conversions in order are %s, then %f/%d as each `addStat` call gives them |
| Schema.WrittenNames | src/main/java/edu/umich/soar/DataCollector.java:231-263 | the twenty stat names in `addStat` order, from "agent" to "smem time per dc" |
| Schema.NamesHaveNoComma | src/main/java/edu/umich/soar/DataCollector.java:231-263 | no stat name contains a comma |
| Schema.HeaderCells | src/main/java/edu/umich/soar/DataCollector.java:226-269 | HEADER splits at commas into the stat names in order, then "settings" |
| Schema.FormatConversions | src/main/java/edu/umich/soar/DataCollector.java:226-269 | FORMAT reads back as exactly one conversion per stat, in order |
| Schema.Format | src/main/java/edu/umich/soar/DataCollector.java:580-586 | `String.format` succeeds iff every conversion has an argument it accepts. It then yields those arguments. Otherwise it fails at the first conversion that has no argument or cannot take the one it gets |
| Csv.SettingsField | src/main/java/edu/umich/soar/DataCollector.java:620-652 | the settings field is enclosed in double quotes |
| Csv.SettingsCells | src/main/java/edu/umich/soar/DataCollector.java:620-652 | for a timestamp without a comma (as the `yyyy-MM-dd HH:mm:ss` date is), between its quotes the settings field splits into the date, the learning note, the epmem note, the smem note and, when set, the cells of the additional settings, which may themselves contain commas |
| Csv.SettingsCellsPlain | src/main/java/edu/umich/soar/DataCollector.java:644-647 | additional settings without a comma make exactly one fifth cell |
| Csv.RowValues | src/main/java/edu/umich/soar/DataCollector.java:580-586 | `collect` passes 18 arguments to `String.format`, one per stat without a TODO, in header order: argument i is the value of the stat that cell i of the repaired header names (`Csv.ValueOf`: agent name, wall clock, deltas, means, smem counts); the two smem max-time stats have no argument |
| Csv.WrittenFormatRejectsRow | src/main/java/edu/umich/soar/DataCollector.java:580-586 | as written, FORMAT rejects every row at its 16th conversion, `%f` given the smem query count |
| Csv.FormatAcceptsRow | src/main/java/edu/umich/soar/DataCollector.java:580-586 | the repaired FORMAT accepts every row and prints exactly its 18 values |
| Csv.HeaderMatchesRow | src/main/java/edu/umich/soar/DataCollector.java:226-269 | the repaired header has one cell per row value plus "settings"; the written one has two cells more |
| DataCollector.Init | src/main/java/edu/umich/soar/DataCollector.java:284-287 | a new collector is disabled, has no PrintWriter, samples every 5000 cycles, has a zeroed counter and mark, a zero offset and stop time, zeroed `last*` fields, and keeps the invariant |
| DataCollector.Flush | src/main/java/edu/umich/soar/DataCollector.java:613-618 | `flush` flushes every printed line of the PrintWriter, if there is one, and changes nothing else |
| DataCollector.Reset | src/main/java/edu/umich/soar/DataCollector.java:294-310 | `reset` flushes, zeroes the counter, the mark, the clock and every `last*` field, and keeps the stream, the PrintWriter, the mode and the periods |
| DataCollector.SetAdditionalSettings | src/main/java/edu/umich/soar/DataCollector.java:320-323 | sets or clears the additional settings and nothing else |
| DataCollector.EnabledIffBound | src/main/java/edu/umich/soar/DataCollector.java:654-657 | `isEnabled` holds exactly when a stream is bound: binding a stream enables, binding null disables, and a new collector is disabled |
| DataCollector.SetOutputStream | src/main/java/edu/umich/soar/DataCollector.java:338-344 | rebinding the bound stream changes nothing; any other stream, or none, replaces it and drops the PrintWriter |
| DataCollector.SetPeriodCycles | src/main/java/edu/umich/soar/DataCollector.java:353-357 | cycle mode with the new period; the time period, the counter, the mark and everything outside the schedule are kept |
| DataCollector.SetPeriodMillis | src/main/java/edu/umich/soar/DataCollector.java:367-371 | elapsed-time mode with the new period; the cycle period, the counter, the mark and everything outside the schedule are kept |
| DataCollector.OnStart | src/main/java/edu/umich/soar/DataCollector.java:380-384 | the clock runs again from the reading at the stop instant, and nothing else changes |
| DataCollector.OnStop | src/main/java/edu/umich/soar/DataCollector.java:393-397 | records the stop time and flushes the PrintWriter, and changes nothing else |
| DataCollector.OnUpdateEvent | src/main/java/edu/umich/soar/DataCollector.java:416-450 | the counter advances with wrap-around. Disabled, the answer is false. In cycle mode with a nonzero period the answer is whether the period divides the new count. Only the schedule changes |
| DataCollector.PrintRow | src/main/java/edu/umich/soar/DataCollector.java:587-600 | a row is appended; it is flushed together with everything before it exactly when the clock is stopped |
| DataCollector.Collect | src/main/java/edu/umich/soar/DataCollector.java:478-608 | (repaired `collect`) Disabled, nothing changes. A first pass prints the header first. Printed lines are only ever appended to. Before the first decision only `lastDc` moves. After it, exactly one row of the sampled values is appended, carrying the settings field iff this call opened the PrintWriter, and flushed iff the clock is stopped. The invariant is kept |
| DataCollector.CollectCorrected | src/main/java/edu/umich/soar/DataCollector.java:484-600 | the repaired `collect` prints, after the first decision, exactly the line of the sampled values through `PrintRow` |
| DataCollector.CollectAsWritten | src/main/java/edu/umich/soar/DataCollector.java:478-608 | `collect` as written prints the header on a first pass, moves the `last*` fields, and prints no row |
| DataCollector.RowKeepsWellFormed | src/main/java/edu/umich/soar/DataCollector.java:587-594 | a data row keeps a PrintWriter well formed when only the first row carries the settings field |
| Host.Apply | src/main/java/edu/umich/soar/DataCollector.java:294-608 | every public operation keeps the invariant |
| Host.RunKeepsInvariant | src/main/java/edu/umich/soar/DataCollector.java:462-463 | after any sequence of calls, each PrintWriter starts with the one header, has the settings field on its first row at most, and has flushed no more than it printed |
| Host.InvariantFromInit | src/main/java/edu/umich/soar/DataCollector.java:284-287 | the invariant holds from construction on, after any sequence of calls |
| Host.AsWrittenNeverWritesRows | src/main/java/edu/umich/soar/DataCollector.java:580-607 | as written, no sequence of calls ever prints anything but the header line |
| Host.ApplyKeepsHeaderOnly | src/main/java/edu/umich/soar/DataCollector.java:604-607 | as written, each single call leaves a header-only PrintWriter header-only |
| Host.SessionRowsAsWritten | src/main/java/edu/umich/soar/DataCollector.java:580-607 | as written, binding a stream and collecting past the first decision leaves only the header in it |
| Host.SessionRowsCorrected | src/main/java/edu/umich/soar/DataCollector.java:484-594 | repaired, the same session leaves the header and one row carrying the settings field |
| Host.RebindOpensNewWriter | src/main/java/edu/umich/soar/DataCollector.java:338-344 | after binding a stream other than the current one, the next `collect` opens a new PrintWriter that writes a header first, and its row carries the settings field |
| Host.EarlyFirstPassLosesSettings | src/main/java/edu/umich/soar/DataCollector.java:486-500 | a first `collect` before the first decision prints the header alone, and the next row carries no settings field |
| Host.ResetKeepsWriter | src/main/java/edu/umich/soar/DataCollector.java:294-310 | after `reset`, `collect` appends to the same PrintWriter, with no header or settings field |

## Left out

- Java `long` wrap-around is not modelled. Epoch milliseconds, decision counts and WME counts stay far below 2^63. The 32-bit `count` does wrap in the model.
- Sampling.ElapsedCadence: stated for non-negative periods only. With a negative `periodMillis` the mark can step down to 0, and line 430 then re-arms it at the next call's time, so the mark no longer moves by one period per sample.
- `double` arithmetic is exact real arithmetic. The textual rendering of `%f` and `%d` (digits, locale) is not modelled: a printed row is the sequence of values `String.format` consumed.
- The date of the settings field (`SimpleDateFormat` of `new Date()`) is a string parameter. Its format is not modelled.
- The agent: the property manager, the kernel and CPU timers, the rete, the semantic-memory adapter and `getName` are replaced by one `Deltas.Snapshot` of their readings.
- The smem timer is always 0 (line 564), so `Deltas.SmemTime` is the constant 0.
- Real I/O is not modelled. `OutputStream`, `PrintWriter` and an I/O failure inside them are out of scope; `PrintWriter` swallows those failures anyway.
- A `Csv.Writer` is the current PrintWriter, not the whole content of the stream it wraps. Binding back a stream bound earlier writes a second header and settings field into that stream, after the earlier output. Lines a dropped PrintWriter had not flushed never reach the stream. The model states facts per PrintWriter only.
- A `Csv.Writer`'s `flushed` count is the prefix made visible by an explicit `flush`. PrintWriter's buffer may also spill on its own, which is not modelled.
- Logging (`logger.debug`, `logger.trace`) and `printStackTrace` are left out, because they have no effect on state.
- A Throwable from the agent's getters is not modelled: the snapshot is given. Only the exception `String.format` throws is modelled.
- The commented-out TODO stats (epmem, max decision-cycle figures) are left out, because they are not code.
- `DataCollectorExample.java` is left out: its body is commented out.
- Threading is left out. Every operation is documented as called from the single event thread.
- `null` for the stream or the additional settings is `None`.
- DataCollector.OnUpdateEvent: states the cycle-mode answer for a nonzero period only. The elapsed-time answers, and the `DivideByZero` answer (the ArithmeticException of line 426) that an enabled call gets in cycle mode with period 0, are stated on Sampling.OnUpdate, which it calls unchanged.
- DataCollector.CollectAsWritten: does not restate the value of each `last*` field, only that they move as `Deltas.AdvanceAsWritten` moves them.

## Findings

| source | as written | input that shows it | evidently intended | confidence | as-written member | corrected member |
|---|---|---|---|---|---|---|
| src/main/java/edu/umich/soar/DataCollector.java:258-259 | FORMAT is built with 20 conversions, but `collect` passes 18 arguments (lines 580-586): the smem max-time values are a TODO there. The 16th conversion, `%f`, receives `smemQueries`, a `long`. `String.format` throws IllegalFormatConversionException, and the catch at line 604 swallows it. No data row and no settings field is ever printed; each PrintWriter prints only the header | any `collect` with at least one decision, e.g. a snapshot with 1 decision | leave "smem max time cycle" and "smem max time value" out of FORMAT and HEADER, like the other TODO stats. 18 conversions then match the 18 arguments | high (not executed) | Csv.WrittenFormatRejectsRow | Csv.FormatAcceptsRow |
| src/main/java/edu/umich/soar/DataCollector.java:505 | `lastSmemTimeMsec = kmsec` stores the kernel time into the smem field, so `lastKmsecTime` stays 0. The kernel column reports the cumulative kernel time instead of its delta. The smem-per-decision rate is the kernel time per decision, negated. Once the first finding is fixed, these are the values written | kernel time 1.0 s at 100 decisions, then 1.5 s at 150 decisions: the second row reports 1.5 s, not 0.5 s | `lastKmsecTime = kmsec`, as every other counter stores its own reading | high (not executed) | Deltas.AdvanceAsWritten | Deltas.KernelColumnIsDelta |

=== FILE: csv.dfy ===
/**
 * The output side of DataCollector: the lines printed to the PrintWriter
 * wrapped around the bound stream, how many of them have been flushed, the
 * settings field of the first data row, and the values handed to
 * `String.format` for a data row.
 */
module Csv {
  import opened Results
  import opened Schema
  import opened Deltas

  /** A printed line: the header, or a data row with the settings field on the first one only. */
  datatype Line = HeaderLine(text: string) | DataLine(fields: seq<Value>, settings: Option<string>)

  /** A PrintWriter: every line printed to it and the length of the flushed prefix. */
  datatype Writer = Writer(lines: seq<Line>, flushed: nat)

  /** A new PrintWriter with the header printed and nothing flushed. */
  function Open(header: string): (w: Writer)
    ensures w.lines == [HeaderLine(header)] && w.flushed == 0
  {
    Writer([HeaderLine(header)], 0)
  }

  /** `println` of one line: appended, not flushed. */
  function Println(w: Writer, line: Line): (r: Writer)
    ensures r.lines == w.lines + [line] && r.flushed == w.flushed
  {
    w.(lines := w.lines + [line])
  }

  /** `flush`: everything printed so far reaches the stream. */
  function Flush(w: Writer): (r: Writer)
    ensures r.lines == w.lines && r.flushed == |r.lines|
  {
    w.(flushed := |w.lines|)
  }

  predicate HasSettings(line: Line)
  {
    line.DataLine? && line.settings.Some?
  }

  /**
   * What DataCollector keeps true of every PrintWriter it opens: the header
   * is the first line and the only header, the settings field appears on
   * the line after it at most, and the flushed prefix is a prefix.
   */
  predicate WellFormed(w: Writer, header: string)
  {
    && |w.lines| >= 1
    && w.lines[0] == HeaderLine(header)
    && w.flushed <= |w.lines|
    && (forall i :: 1 <= i < |w.lines| ==> w.lines[i].DataLine?)
    && (forall i :: 2 <= i < |w.lines| ==> !HasSettings(w.lines[i]))
  }

  /**
   * The `getSettingsString` field: a quoted list of the timestamp, the
   * learning flag, the fixed epmem note, the smem flag and, when set, the
   * additional settings.
   */
  function SettingsField(timestamp: string, learning: bool, smemEnabled: bool, additional: Option<string>): (r: string)
    ensures |r| >= 2 && r[0] == '"' && r[|r| - 1] == '"'
  {
    "\"" + SettingsBody(timestamp, learning, smemEnabled, additional) + "\""
  }

  function LearningNote(learning: bool): string
  {
    if learning then "Learning is enabled" else "Learning is disabled"
  }

  const EpmemNote: string := "epmem learning off"

  function SmemNote(smemEnabled: bool): string
  {
    if smemEnabled then "smem learning on" else "smem learning off"
  }

  function SettingsBody(timestamp: string, learning: bool, smemEnabled: bool, additional: Option<string>): string
  {
    timestamp + "," + (LearningNote(learning) + "," + (EpmemNote + "," + (SmemNote(smemEnabled)
      + (if additional.Some? then "," + additional.value else ""))))
  }

  lemma NotesHaveNoComma(learning: bool, smemEnabled: bool)
    ensures ',' !in LearningNote(learning)
    ensures ',' !in EpmemNote
    ensures ',' !in SmemNote(smemEnabled)
  {
  }

  /**
   * Between its quotes, the settings field splits at commas into the
   * timestamp, the three configuration notes and then the cells of the
   * additional settings, which `setAdditionalSettings` does not keep free of
   * commas: a comma-free additional text is one cell. The timestamp, in
   * `yyyy-MM-dd HH:mm:ss` form, has no comma.
   */
  lemma SettingsCells(timestamp: string, learning: bool, smemEnabled: bool, additional: Option<string>)
    requires ',' !in timestamp
    ensures var r := SettingsField(timestamp, learning, smemEnabled, additional);
      Split(r[1..|r| - 1]) ==
        [timestamp, LearningNote(learning), EpmemNote, SmemNote(smemEnabled)]
        + (if additional.Some? then Split(additional.value) else [])
  {
    var r := SettingsField(timestamp, learning, smemEnabled, additional);
    var learn, smem := LearningNote(learning), SmemNote(smemEnabled);
    var tail := if additional.Some? then "," + additional.value else "";
    assert r[1..|r| - 1] == SettingsBody(timestamp, learning, smemEnabled, additional);
    NotesHaveNoComma(learning, smemEnabled);
    LeadingCells(timestamp, learn, EpmemNote, smem + tail);
    SmemCells(smem, additional);
  }

  /** Three comma-free fields, each followed by a comma, split off ahead of the rest. */
  lemma LeadingCells(a: string, b: string, c: string, rest: string)
    requires ',' !in a && ',' !in b && ',' !in c
    ensures Split(a + "," + (b + "," + (c + "," + rest))) == [a, b, c] + Split(rest)
  {
    SplitField(a, b + "," + (c + "," + rest));
    SplitField(b, c + "," + rest);
    SplitField(c, rest);
  }

  /** An additional text without a comma is the fifth and last cell. */
  lemma SettingsCellsPlain(timestamp: string, learning: bool, smemEnabled: bool, additional: string)
    requires ',' !in timestamp && ',' !in additional
    ensures var r := SettingsField(timestamp, learning, smemEnabled, Some(additional));
      Split(r[1..|r| - 1]) == [timestamp, LearningNote(learning), EpmemNote, SmemNote(smemEnabled), additional]
  {
    SettingsCells(timestamp, learning, smemEnabled, Some(additional));
    SplitWhole(additional);
  }

  /** The last note splits off whole, followed by the cells of the additional settings if any. */
  lemma SmemCells(smem: string, additional: Option<string>)
    requires ',' !in smem
    ensures Split(smem + (if additional.Some? then "," + additional.value else ""))
      == [smem] + (if additional.Some? then Split(additional.value) else [])
  {
    match additional
    case Some(v) => NoteThenText(smem, v);
    case None => NoteAlone(smem);
  }

  lemma NoteThenText(note: string, v: string)
    requires ',' !in note
    ensures Split(note + ("," + v)) == [note] + Split(v)
  {
    assert note + ("," + v) == note + "," + v;
    SplitField(note, v);
  }

  lemma NoteAlone(note: string)
    requires ',' !in note
    ensures Split(note + "") == [note]
  {
    assert note + "" == note;
    SplitWhole(note);
  }

  /**
   * The value `collect` computes for each stat, by the meaning of its header
   * name; the two smem max-time stats have none, since their readings are
   * still a TODO.
   */
  function ValueOf(col: Column, name: string, wallClock: real, x: Sample): Option<Value>
  {
    match col
    case Agent => Some(Text(name))
    case WallClock => Some(Double(wallClock))
    case DcNum => Some(Long(x.dc))
    case KernelMsec => Some(Double(x.kernel))
    case AvgMsecDc => Some(Double(x.kernelPerDc))
    case CpuMsec => Some(Double(x.cpu))
    case PfTotal => Some(Long(x.firings))
    case AverageMsecPf => Some(Double(x.kernelPerFiring))
    case WmCurrent => Some(Long(x.wmes))
    case WmMean => Some(Double(x.wmMean))
    case WmMax => Some(Long(x.wmMax))
    case WmAdditions => Some(Long(x.wmAdditions))
    case WmRemovals => Some(Long(x.wmRemovals))
    case SmemTime => Some(Double(x.smemTime))
    case SmemMaxTimeCycle => None
    case SmemMaxTimeValue => None
    case SmemRetrieves => Some(Long(x.smemRetrieves))
    case SmemQueries => Some(Long(x.smemQueries))
    case SmemStores => Some(Long(x.smemStores))
    case SmemTimePerDc => Some(Double(x.smemPerDc))
  }

  /**
   * The arguments `collect` passes to `String.format`, in order: one per
   * repaired column, each the value of the stat that column names.
   */
  function RowValues(name: string, wallClock: real, x: Sample): (r: seq<Value>)
    ensures |r| == |Columns| == 18
    ensures forall i :: 0 <= i < |Columns| ==> ValueOf(Columns[i], name, wallClock, x) == Some(r[i])
  {
    [Text(name), Double(wallClock), Long(x.dc),
     Double(x.kernel), Double(x.kernelPerDc), Double(x.cpu),
     Long(x.firings), Double(x.kernelPerFiring),
     Long(x.wmes), Double(x.wmMean), Long(x.wmMax), Long(x.wmAdditions), Long(x.wmRemovals),
     Double(x.smemTime), Long(x.smemRetrieves), Long(x.smemQueries), Long(x.smemStores),
     Double(x.smemPerDc)]
  }

  /**
   * As written, the pattern has 20 conversions for 18 arguments, and the
   * 16th conversion, `%f` for "smem max time value", receives the smem query
   * count, a Long: `String.format` throws IllegalFormatConversionException
   * for every data row.
   */
  lemma WrittenFormatRejectsRow(name: string, wallClock: real, x: Sample)
    ensures Format(Conversions(WrittenColumns), RowValues(name, wallClock, x)) == Failure(IllegalFormatConversion(15))
  {
    var convs := Conversions(WrittenColumns);
    var args := RowValues(name, wallClock, x);
    forall j | 0 <= j < 15 ensures Accepts(convs[j], args[j]) {
      assert convs[j] == ConversionOf(WrittenColumns[j]);
    }
    assert convs[15] == ConversionOf(SmemMaxTimeValue) == Float;
    assert args[15] == Long(x.smemQueries);
    var r := Format(convs, args);
    assert r.Failure?;
    assert r.error.index == 15;
  }

  /** The corrected pattern takes every data row: one conversion per argument, each of the right kind. */
  lemma FormatAcceptsRow(name: string, wallClock: real, x: Sample)
    ensures Format(Conversions(Columns), RowValues(name, wallClock, x)) == Success(RowValues(name, wallClock, x))
  {
    var convs := Conversions(Columns);
    var args := RowValues(name, wallClock, x);
    assert |convs| == 18;
    forall j | 0 <= j < 18 ensures Accepts(convs[j], args[j]) {
      assert convs[j] == ConversionOf(Columns[j]);
    }
    assert args[..18] == args;
  }

  /**
   * The corrected header names one column per row value and then
   * "settings"; the written one names two columns more than a row has.
   */
  lemma HeaderMatchesRow(name: string, wallClock: real, x: Sample)
    ensures |Split(HeaderText(Columns))| == |RowValues(name, wallClock, x)| + 1
    ensures |Split(HeaderText(WrittenColumns))| == |RowValues(name, wallClock, x)| + 3
  {
    NamesHaveNoComma(Columns);
    NamesHaveNoComma(WrittenColumns);
    HeaderCells(Columns);
    HeaderCells(WrittenColumns);
  }
}

=== FILE: data_collector.dfy ===
/**
 * The DataCollector object as one immutable record and its public
 * operations as pure transitions. The clock reading `now` and the agent's
 * counters are parameters; the bound OutputStream is an identity and the
 * PrintWriter wrapped around it is a `Csv.Writer`.
 *
 * `Build` selects between the class as written and the class with its two
 * slips repaired: the pattern without the two smem max-time conversions
 * (whose values are never passed) and line 505 storing into `lastKmsecTime`.
 */
module DataCollector {
  import opened Results
  import opened JavaInt
  import opened Schema
  import opened Deltas
  import opened Csv
  import Sampling
  import PausableClock

  /** An OutputStream; `equals` on streams is identity, so a number stands for one. */
  type Stream = nat

  datatype Build = AsWritten | Corrected

  datatype Collector = Collector(
    schedule: Sampling.Schedule,
    clock: PausableClock.Clock,
    last: Last,
    out: Option<Stream>,
    pout: Option<Writer>,
    additionalSettings: Option<string>)

  function ColumnsOf(build: Build): seq<Column>
  {
    if build == Corrected then Columns else WrittenColumns
  }

  /** The HEADER constant of the build. */
  function HeaderOf(build: Build): string
  {
    HeaderText(ColumnsOf(build))
  }

  /**
   * What every operation keeps true: a PrintWriter exists only around a
   * bound stream, and what it holds is well formed under the build's header.
   */
  predicate Inv(c: Collector, build: Build)
  {
    c.pout.Some? ==> c.out.Some? && WellFormed(c.pout.value, HeaderOf(build))
  }

  /** `isEnabled`: a stream is bound. */
  predicate IsEnabled(c: Collector)
  {
    c.out.Some?
  }

  /**
   * `isEnabled` follows the binding: `setOutputStream` with a stream enables
   * the collector, with null disables it, and a new collector is disabled.
   */
  lemma EnabledIffBound(c: Collector, out: Option<Stream>)
    ensures IsEnabled(SetOutputStream(c, out)) <==> out.Some?
    ensures !IsEnabled(Init())
  {
  }

  /** A new DataCollector: field initializers, then `reset`. */
  function Init(): (r: Collector)
    ensures !IsEnabled(r) && r.pout.None? && r.additionalSettings.None?
    ensures r.schedule.mode == Sampling.DecisionCycles && r.schedule.periodCycles == 5000
    ensures r.schedule.count == 0 && r.schedule.lastTimeMillis == 0
    ensures r.clock == PausableClock.Zero && !PausableClock.Paused(r.clock) && r.last == Zero
    ensures forall build :: Inv(r, build)
  {
    Reset(Collector(Sampling.Initial, PausableClock.Zero, Zero, None, None, None))
  }

  /** `flush`: the PrintWriter, if any, pushes every printed line to the stream. */
  function Flush(c: Collector): (r: Collector)
    ensures c.pout.None? ==> r == c
    ensures c.pout.Some? ==> (r.pout.Some? && r.pout.value.lines == c.pout.value.lines
      && r.pout.value.flushed == |r.pout.value.lines|)
    ensures r.(pout := c.pout) == c
    ensures forall build :: Inv(c, build) ==> Inv(r, build)
  {
    if c.pout.Some? then c.(pout := Some(Csv.Flush(c.pout.value))) else c
  }

  /**
   * `reset`: flush, then zero the invocation counter, the elapsed-time
   * mark, the clock and every `last*` field. The stream, the PrintWriter,
   * the mode and both periods stay, so no new header is written.
   */
  function Reset(c: Collector): (r: Collector)
    ensures r.schedule.count == 0 && r.schedule.lastTimeMillis == 0
    ensures r.schedule.mode == c.schedule.mode
    ensures r.schedule.periodCycles == c.schedule.periodCycles
    ensures r.schedule.periodMillis == c.schedule.periodMillis
    ensures r.clock == PausableClock.Zero && !PausableClock.Paused(r.clock)
    ensures r.last == Zero
    ensures r.out == c.out && r.additionalSettings == c.additionalSettings
    ensures r.pout.Some? <==> c.pout.Some?
    ensures c.pout.Some? ==> (r.pout.value.lines == c.pout.value.lines
      && r.pout.value.flushed == |r.pout.value.lines|)
    ensures forall build :: Inv(c, build) ==> Inv(r, build)
  {
    var f := Flush(c);
    f.(schedule := Sampling.Reset(c.schedule), clock := PausableClock.Zero, last := Zero)
  }

  /** `setAdditionalSettings`: the text appended to the settings field, or none. */
  function SetAdditionalSettings(c: Collector, settings: Option<string>): (r: Collector)
    ensures r.additionalSettings == settings
    ensures r.(additionalSettings := c.additionalSettings) == c
    ensures forall build :: Inv(c, build) ==> Inv(r, build)
  {
    c.(additionalSettings := settings)
  }

  /**
   * `setOutputStream`: binding the stream already bound changes nothing;
   * any other stream (or none) replaces it and drops the PrintWriter, with
   * whatever it had not flushed.
   */
  function SetOutputStream(c: Collector, out: Option<Stream>): (r: Collector)
    ensures c.out.Some? && out == c.out ==> r == c
    ensures !(c.out.Some? && out == c.out) ==> r.out == out && r.pout.None?
    ensures r.(out := c.out, pout := c.pout) == c
    ensures forall build :: Inv(c, build) ==> Inv(r, build)
  {
    if c.out.Some? && c.out == out then c else c.(out := out, pout := None)
  }

  /** `setPeriodCycles`: cycle mode with the new period; the counter keeps counting. */
  function SetPeriodCycles(c: Collector, cycles: int32): (r: Collector)
    ensures r.schedule.mode == Sampling.DecisionCycles && r.schedule.periodCycles == cycles
    ensures r.schedule.periodMillis == c.schedule.periodMillis
    ensures r.schedule.count == c.schedule.count && r.schedule.lastTimeMillis == c.schedule.lastTimeMillis
    ensures r.(schedule := c.schedule) == c
    ensures forall build :: Inv(c, build) ==> Inv(r, build)
  {
    c.(schedule := Sampling.SetPeriodCycles(c.schedule, cycles))
  }

  /** `setPeriodMillis`: elapsed-time mode with the new period; the timer keeps its mark. */
  function SetPeriodMillis(c: Collector, millis: int32): (r: Collector)
    ensures r.schedule.mode == Sampling.ElapsedTime && r.schedule.periodMillis == millis
    ensures r.schedule.periodCycles == c.schedule.periodCycles
    ensures r.schedule.count == c.schedule.count && r.schedule.lastTimeMillis == c.schedule.lastTimeMillis
    ensures r.(schedule := c.schedule) == c
    ensures forall build :: Inv(c, build) ==> Inv(r, build)
  {
    c.(schedule := Sampling.SetPeriodMillis(c.schedule, millis))
  }

  /** `onStart`: the clock resumes from its reading at the stop instant; nothing is written. */
  function OnStart(c: Collector, now: int): (r: Collector)
    ensures !PausableClock.Paused(r.clock)
    ensures PausableClock.ElapsedMillis(r.clock, now) == PausableClock.ElapsedMillis(c.clock, c.clock.stopTime)
    ensures r.(clock := c.clock) == c
    ensures forall build :: Inv(c, build) ==> Inv(r, build)
  {
    c.(clock := PausableClock.OnStart(c.clock, now))
  }

  /** `onStop`: the clock records the stop time and the PrintWriter, if any, is flushed. */
  function OnStop(c: Collector, now: int): (r: Collector)
    ensures r.clock.stopTime == now && r.clock.offset == c.clock.offset
    ensures r.pout.Some? <==> c.pout.Some?
    ensures c.pout.Some? ==> (r.pout.value.lines == c.pout.value.lines
      && r.pout.value.flushed == |r.pout.value.lines|)
    ensures r.(clock := c.clock, pout := c.pout) == c
    ensures forall build :: Inv(c, build) ==> Inv(r, build)
  {
    Flush(c.(clock := PausableClock.OnStop(c.clock, now)))
  }

  /**
   * `onUpdateEvent`: the scheduler step, enabled exactly when a stream is
   * bound. Only the schedule changes.
   */
  function OnUpdateEvent(c: Collector, now: int): (r: (Collector, Sampling.Answer))
    ensures r.0.schedule.count == Increment(c.schedule.count)
    ensures !IsEnabled(c) ==> r.1 == Sampling.Returned(false) && r.0.schedule.lastTimeMillis == c.schedule.lastTimeMillis
    ensures IsEnabled(c) && c.schedule.mode == Sampling.DecisionCycles && c.schedule.periodCycles != 0 ==>
      r.1 == Sampling.Returned(Rem(r.0.schedule.count, c.schedule.periodCycles) == 0)
    ensures r.0.(schedule := c.schedule) == c
    ensures forall build :: Inv(c, build) ==> Inv(r.0, build)
  {
    var (s, answer) := Sampling.OnUpdate(c.schedule, IsEnabled(c), now);
    (c.(schedule := s), answer)
  }

  /** The PrintWriter `collect` prints to: the existing one, or a new one with the header. */
  function WriterFor(c: Collector, build: Build): Writer
  {
    if c.pout.Some? then c.pout.value else Open(HeaderOf(build))
  }

  /** The settings field, on the first-pass row only. */
  function SettingsFor(c: Collector, s: Snapshot, timestamp: string): Option<string>
  {
    if c.pout.None? then Some(SettingsField(timestamp, s.learning, s.smemEnabled, c.additionalSettings)) else None
  }

  /** A data row printed, then flushed when the clock is stopped. */
  function PrintRow(w: Writer, line: Line, paused: bool): (r: Writer)
    ensures r.lines == w.lines + [line]
    ensures paused ==> r.flushed == |r.lines|
    ensures !paused ==> r.flushed == w.flushed
  {
    var printed := Println(w, line);
    if paused then Csv.Flush(printed) else printed
  }

  /**
   * `collect` of one agent snapshot at time `now`, with `timestamp` the
   * formatted date of the settings field. When `String.format` throws,
   * the exception is swallowed after the header and every `last*` update.
   */
  function CollectWith(c: Collector, s: Snapshot, now: int, timestamp: string, build: Build): Collector
  {
    if c.out.None? then c
    else if s.decisions < 1 then c.(pout := Some(WriterFor(c, build)), last := c.last.(dc := s.decisions))
    else
      var (x, next) := AdvanceWith(c.last, s, build == Corrected);
      var args := RowValues(s.name, PausableClock.WallClock(c.clock, now), x);
      match Format(Conversions(ColumnsOf(build)), args)
      case Failure(_) => c.(pout := Some(WriterFor(c, build)), last := next)
      case Success(fields) =>
        var line := DataLine(fields, SettingsFor(c, s, timestamp));
        c.(pout := Some(PrintRow(WriterFor(c, build), line, PausableClock.Paused(c.clock))), last := next)
  }

  /** The line the repaired `collect` prints for a snapshot past the first decision. */
  function RowFor(c: Collector, s: Snapshot, now: int, timestamp: string): Line
  {
    DataLine(RowValues(s.name, PausableClock.WallClock(c.clock, now), Advance(c.last, s).0), SettingsFor(c, s, timestamp))
  }

  /**
   * `collect`, repaired: with no stream bound nothing changes. Otherwise a
   * first pass prints the header; a snapshot before the first decision
   * records only the decision count; any later one prints one row holding
   * exactly the sampled values, the settings field on the first pass only,
   * flushed exactly while the clock is stopped.
   */
  function Collect(c: Collector, s: Snapshot, now: int, timestamp: string): (r: Collector)
    ensures !IsEnabled(c) ==> r == c
    ensures IsEnabled(c) ==> r.pout.Some? && r.(pout := c.pout, last := c.last) == c
    ensures IsEnabled(c) && c.pout.None? ==> |r.pout.value.lines| >= 1 && r.pout.value.lines[0] == HeaderLine(HeaderOf(Corrected))
    ensures IsEnabled(c) && c.pout.Some? ==> c.pout.value.lines <= r.pout.value.lines
    ensures Inv(c, Corrected) && c.pout.Some? ==> c.pout.value.flushed <= r.pout.value.flushed
    ensures IsEnabled(c) && s.decisions < 1 ==>
      r.pout == Some(WriterFor(c, Corrected)) && r.last == c.last.(dc := s.decisions)
    ensures IsEnabled(c) && s.decisions >= 1 ==>
      && r.last == Observed(s)
      && r.pout.value.lines == WriterFor(c, Corrected).lines + [RowFor(c, s, now, timestamp)]
      && (PausableClock.Paused(c.clock) ==> r.pout.value.flushed == |r.pout.value.lines|)
      && (!PausableClock.Paused(c.clock) ==> r.pout.value.flushed == WriterFor(c, Corrected).flushed)
    ensures Inv(c, Corrected) ==> Inv(r, Corrected)
  {
    CollectCorrected(c, s, now, timestamp);
    CollectWith(c, s, now, timestamp, Corrected)
  }

  /** The facts `Collect` states, about the repaired build of `collect`. */
  lemma CollectCorrected(c: Collector, s: Snapshot, now: int, timestamp: string)
    ensures var r := CollectWith(c, s, now, timestamp, Corrected);
      && (IsEnabled(c) ==> r.pout.Some? && r.(pout := c.pout, last := c.last) == c)
      && (IsEnabled(c) && c.pout.None? ==> |r.pout.value.lines| >= 1 && r.pout.value.lines[0] == HeaderLine(HeaderOf(Corrected)))
      && (IsEnabled(c) && c.pout.Some? ==> c.pout.value.lines <= r.pout.value.lines)
      && (Inv(c, Corrected) && c.pout.Some? ==> c.pout.value.flushed <= r.pout.value.flushed)
      && (IsEnabled(c) && s.decisions >= 1 ==>
        && r.last == Observed(s)
        && r.pout == Some(PrintRow(WriterFor(c, Corrected), RowFor(c, s, now, timestamp), PausableClock.Paused(c.clock))))
      && (Inv(c, Corrected) ==> Inv(r, Corrected))
  {
    var w := WriterFor(c, Corrected);
    var r := CollectWith(c, s, now, timestamp, Corrected);
    if c.out.Some? && s.decisions >= 1 {
      FormatAcceptsRow(s.name, PausableClock.WallClock(c.clock, now), Advance(c.last, s).0);
      var line := RowFor(c, s, now, timestamp);
      var paused := PausableClock.Paused(c.clock);
      assert r == c.(pout := Some(PrintRow(w, line, paused)), last := Observed(s));
      assert w.lines <= PrintRow(w, line, paused).lines;
      if Inv(c, Corrected) {
        RowKeepsWellFormed(w, HeaderOf(Corrected), line, paused);
      }
    }
  }

  /**
   * `collect` as written: the header is printed on a first pass and the
   * `last*` fields move as lines 496-573 move them, but `String.format`
   * throws on every row, so no row and no settings field is ever printed.
   */
  function CollectAsWritten(c: Collector, s: Snapshot, now: int, timestamp: string): (r: Collector)
    ensures !IsEnabled(c) ==> r == c
    ensures IsEnabled(c) ==> r.pout == Some(WriterFor(c, AsWritten)) && r.(pout := c.pout, last := c.last) == c
    ensures IsEnabled(c) && s.decisions < 1 ==> r.last == c.last.(dc := s.decisions)
    ensures IsEnabled(c) && s.decisions >= 1 ==> r.last == AdvanceAsWritten(c.last, s).1
    ensures Inv(c, AsWritten) ==> Inv(r, AsWritten)
  {
    WrittenFormatRejectsRow(s.name, PausableClock.WallClock(c.clock, now), AdvanceAsWritten(c.last, s).0);
    CollectWith(c, s, now, timestamp, AsWritten)
  }

  /**
   * A data row keeps a well-formed writer well formed, when it carries the
   * settings field only as the writer's first row.
   */
  lemma RowKeepsWellFormed(w: Writer, header: string, line: Line, paused: bool)
    requires WellFormed(w, header) && line.DataLine?
    requires line.settings.Some? ==> |w.lines| == 1
    ensures WellFormed(PrintRow(w, line, paused), header)
  {
    var p := PrintRow(w, line, paused);
    assert p.lines[|w.lines|] == line;
  }
}

=== FILE: deltas.dfy ===
/**
 * The delta accounting of `collect`: the counters read from the agent, the
 * `last*` fields kept between calls, and the per-interval deltas and rates
 * written to a row. Every rate is guarded by its divisor: zero when the
 * divisor delta is not positive.
 */
module Deltas {
  import opened JavaInt

  /** The readings `collect` takes from the agent. */
  datatype Snapshot = Snapshot(
    name: string,
    decisions: int,       // DECISION_PHASES_COUNT
    kernelSeconds: real,  // total kernel timer
    cpuSeconds: real,     // total CPU timer
    firings: int,         // PRODUCTION_FIRING_COUNT
    wmes: int,            // working-memory elements in the rete
    wmMax: int,           // MAX_WM_SIZE
    wmAdditions: int,     // WME_ADDITION_COUNT
    wmRemovals: int,      // WME_REMOVAL_COUNT
    smemRetrieves: int,
    smemQueries: int,
    smemStores: int,
    learning: bool,       // LEARNING_ON
    smemEnabled: bool)

  /** The `last*` fields. */
  datatype Last = Last(
    dc: int,
    kernel: real,
    cpu: real,
    firings: int,
    wmes: int,
    wmAdditions: int,
    wmRemovals: int,
    smemTime: real)

  /** What `reset` leaves: every `last*` field zero. */
  const Zero: Last := Last(0, 0.0, 0.0, 0, 0, 0, 0, 0.0)

  /** The smem time reading; the semantic memory keeps no timers, so it is always zero. */
  const SmemTime: real := 0.0

  /** The values of one data row that come from the agent. */
  datatype Sample = Sample(
    dc: int,
    deltaDc: int,
    kernel: real,
    kernelPerDc: real,
    cpu: real,
    firings: int,
    kernelPerFiring: real,
    wmes: int,
    wmMean: real,
    wmMax: int,
    wmAdditions: int,
    wmRemovals: int,
    smemTime: real,
    smemRetrieves: int,
    smemQueries: int,
    smemStores: int,
    smemPerDc: real)

  /** A guarded rate `d > 0 ? x / d : 0` over doubles. */
  function PerUnit(x: real, d: int): (r: real)
    ensures d > 0 ==> r * (d as real) == x
    ensures d <= 0 ==> r == 0.0
  {
    if d > 0 then x / (d as real) else 0.0
  }

  /**
   * The guarded `wm mean` rate: `long / long` in Java, so the quotient is
   * truncated toward zero before it is widened to a double.
   */
  function WmMean(deltaWmes: int, deltaDc: int): (r: real)
    ensures deltaDc <= 0 ==> r == 0.0
    ensures deltaDc > 0 ==>
      && r == r.Floor as real
      && Abs(deltaWmes - deltaDc * r.Floor) < deltaDc
      && (deltaWmes >= 0 ==> deltaWmes - deltaDc * r.Floor >= 0)
      && (deltaWmes <= 0 ==> deltaWmes - deltaDc * r.Floor <= 0)
  {
    if deltaDc > 0 then Quot(deltaWmes, deltaDc) as real else 0.0
  }

  /** The `last*` fields once a snapshot has been fully taken in. */
  function Observed(s: Snapshot): Last
  {
    Last(s.decisions, s.kernelSeconds, s.cpuSeconds, s.firings, s.wmes, s.wmAdditions, s.wmRemovals, SmemTime)
  }

  /**
   * The body of `collect` from the decision count to the smem rate, for a
   * snapshot with `decisions >= 1`. The kernel time is stored into
   * `lastKmsecTime` when `storesKernel` holds, and into `lastSmemTimeMsec`
   * (as line 505 does) otherwise.
   */
  function AdvanceWith(last: Last, s: Snapshot, storesKernel: bool): (Sample, Last)
  {
    var deltaDc := s.decisions - last.dc;
    var deltaKernel := s.kernelSeconds - last.kernel;
    var stored := if storesKernel then last.(kernel := s.kernelSeconds) else last.(smemTime := s.kernelSeconds);
    var deltaCpu := s.cpuSeconds - last.cpu;
    var deltaFirings := s.firings - last.firings;
    var deltaWmes := s.wmes - last.wmes;
    var deltaAdditions := s.wmAdditions - last.wmAdditions;
    var deltaRemovals := s.wmRemovals - last.wmRemovals;
    var deltaSmem := SmemTime - stored.smemTime;
    var sample := Sample(
      s.decisions, deltaDc,
      deltaKernel, PerUnit(deltaKernel, deltaDc),
      deltaCpu,
      deltaFirings, PerUnit(deltaKernel, deltaFirings),
      s.wmes, WmMean(deltaWmes, deltaDc), s.wmMax,
      deltaAdditions, deltaRemovals,
      SmemTime, s.smemRetrieves, s.smemQueries, s.smemStores,
      PerUnit(deltaSmem, deltaDc));
    var next := stored.(
      dc := s.decisions, cpu := s.cpuSeconds, firings := s.firings, wmes := s.wmes,
      wmAdditions := s.wmAdditions, wmRemovals := s.wmRemovals, smemTime := SmemTime);
    (sample, next)
  }

  /**
   * `collect`'s accounting with the kernel time stored in `lastKmsecTime`:
   * every counter's delta is its reading minus the kept value, every kept
   * value becomes the reading, and every rate is zero unless its divisor
   * delta is positive.
   */
  function Advance(last: Last, s: Snapshot): (r: (Sample, Last))
    ensures r.1 == Observed(s)
    ensures var x := r.0;
      && x.dc == s.decisions && last.dc + x.deltaDc == s.decisions
      && last.kernel + x.kernel == s.kernelSeconds
      && last.cpu + x.cpu == s.cpuSeconds
      && last.firings + x.firings == s.firings
      && last.wmAdditions + x.wmAdditions == s.wmAdditions
      && last.wmRemovals + x.wmRemovals == s.wmRemovals
      && x.wmes == s.wmes && x.wmMax == s.wmMax
      && x.smemTime == SmemTime
      && x.smemRetrieves == s.smemRetrieves && x.smemQueries == s.smemQueries && x.smemStores == s.smemStores
    ensures var x := r.0;
      && (x.deltaDc > 0 ==> x.kernelPerDc * (x.deltaDc as real) == x.kernel)
      && (x.deltaDc > 0 ==> x.smemPerDc * (x.deltaDc as real) == SmemTime - last.smemTime)
      && (x.deltaDc <= 0 ==> x.kernelPerDc == 0.0 && x.wmMean == 0.0 && x.smemPerDc == 0.0)
      && (x.firings > 0 ==> x.kernelPerFiring * (x.firings as real) == x.kernel)
      && (x.firings <= 0 ==> x.kernelPerFiring == 0.0)
      && (x.deltaDc > 0 ==> x.wmMean == WmMean(s.wmes - last.wmes, x.deltaDc))
    ensures last.smemTime == SmemTime ==> r.0.smemPerDc == 0.0
  {
    AdvanceWith(last, s, true)
  }

  /**
   * `collect`'s accounting as line 505 writes it: the kernel time lands in
   * `lastSmemTimeMsec`, so `lastKmsecTime` never moves, and the smem delta
   * becomes minus the kernel time.
   */
  function AdvanceAsWritten(last: Last, s: Snapshot): (r: (Sample, Last))
    ensures r.1 == Observed(s).(kernel := last.kernel)
    ensures last.kernel + r.0.kernel == s.kernelSeconds
    ensures last.dc + r.0.deltaDc == s.decisions
    ensures r.0.deltaDc > 0 ==> r.0.smemPerDc * (r.0.deltaDc as real) == -s.kernelSeconds
  {
    AdvanceWith(last, s, false)
  }

  /**
   * The two accountings differ only in the kept kernel time and the smem
   * rate: all other columns agree.
   */
  lemma AsWrittenDiffersOnlyInKernelStore(last: Last, s: Snapshot)
    ensures var (x, lx) := Advance(last, s);
      var (y, ly) := AdvanceAsWritten(last, s);
      && y == x.(smemPerDc := y.smemPerDc)
      && ly == lx.(kernel := last.kernel)
  {
  }

  /**
   * Two consecutive samples: the second one's deltas are the differences of
   * the two snapshots, whatever was kept before the first.
   */
  lemma ConsecutiveDeltas(last: Last, s1: Snapshot, s2: Snapshot)
    ensures var x := Advance(Advance(last, s1).1, s2).0;
      && x.deltaDc == s2.decisions - s1.decisions
      && x.firings == s2.firings - s1.firings
      && x.kernel == s2.kernelSeconds - s1.kernelSeconds
      && x.cpu == s2.cpuSeconds - s1.cpuSeconds
      && x.wmAdditions == s2.wmAdditions - s1.wmAdditions
      && x.wmRemovals == s2.wmRemovals - s1.wmRemovals
      && x.smemPerDc == 0.0
  {
  }

  /** After `reset`, the deltas of a sample are the full readings. */
  lemma DeltasAfterReset(s: Snapshot)
    ensures var x := Advance(Zero, s).0;
      && x.deltaDc == s.decisions && x.firings == s.firings
      && x.kernel == s.kernelSeconds && x.cpu == s.cpuSeconds
      && x.wmAdditions == s.wmAdditions && x.wmRemovals == s.wmRemovals
  {
  }

  /**
   * The kernel column of one sample and the `last*` fields after it: the
   * column is the growth since the kept kernel time, and the kept kernel
   * time moves only when the kernel time is stored in its own field.
   */
  function KernelStep(last: Last, s: Snapshot, storesKernel: bool): (r: (real, Last))
    ensures r.0 == s.kernelSeconds - last.kernel
    ensures r.1.kernel == if storesKernel then s.kernelSeconds else last.kernel
  {
    var (x, next) := AdvanceWith(last, s, storesKernel);
    (x.kernel, next)
  }

  /** The kernel column of each sample when a sequence of snapshots is taken in. */
  function KernelColumn(last: Last, snaps: seq<Snapshot>, storesKernel: bool): (r: seq<real>)
    ensures |r| == |snaps|
    decreases |snaps|
  {
    if |snaps| == 0 then []
    else
      var (k, next) := KernelStep(last, snaps[0], storesKernel);
      [k] + KernelColumn(next, snaps[1..], storesKernel)
  }

  /** The agent's cumulative kernel time at each snapshot. */
  function CumulativeKernel(snaps: seq<Snapshot>): seq<real>
  {
    if |snaps| == 0 then [] else [snaps[0].kernelSeconds] + CumulativeKernel(snaps[1..])
  }

  /**
   * As written, the kernel column never reports a delta: after `reset`,
   * every sample reports the agent's cumulative kernel time.
   */
  lemma {:induction false} AsWrittenKernelIsCumulative(last: Last, snaps: seq<Snapshot>)
    requires last.kernel == 0.0
    ensures KernelColumn(last, snaps, false) == CumulativeKernel(snaps)
    decreases |snaps|
  {
    if |snaps| > 0 {
      var (k, next) := KernelStep(last, snaps[0], false);
      AsWrittenKernelIsCumulative(next, snaps[1..]);
    }
  }

  /**
   * Corrected, the kernel column reports the growth since the previous
   * sample: after the first, each entry is the difference of consecutive
   * cumulative readings.
   */
  lemma {:induction false} KernelColumnIsDelta(last: Last, snaps: seq<Snapshot>)
    ensures |snaps| > 0 ==> KernelColumn(last, snaps, true)[0] == snaps[0].kernelSeconds - last.kernel
    ensures forall i :: 1 <= i < |snaps| ==>
      KernelColumn(last, snaps, true)[i] == snaps[i].kernelSeconds - snaps[i - 1].kernelSeconds
    decreases |snaps|
  {
    if |snaps| > 0 {
      var (k, next) := KernelStep(last, snaps[0], true);
      KernelColumnIsDelta(next, snaps[1..]);
      assert KernelColumn(last, snaps, true) == [k] + KernelColumn(next, snaps[1..], true);
    }
  }

  /** Kernel time 1.0 s at 100 decisions, then 1.5 s at 150. */
  function ExampleFirst(): Snapshot
  {
    Snapshot("soar", 100, 1.0, 1.0, 50, 10, 10, 0, 0, 0, 0, 0, false, false)
  }

  function ExampleSecond(): Snapshot
  {
    ExampleFirst().(decisions := 150, kernelSeconds := 1.5, firings := 80)
  }

  /**
   * The two samples that show line 505: as written, the second row reports
   * 1.5 s of kernel time, the cumulative figure, instead of 0.5 s.
   */
  lemma KernelColumnExampleAsWritten()
    ensures AdvanceAsWritten(AdvanceAsWritten(Zero, ExampleFirst()).1, ExampleSecond()).0.kernel == 1.5
  {
    var kept := AdvanceAsWritten(Zero, ExampleFirst()).1;
    assert kept.kernel == 0.0;
  }

  /**
   * As written, whenever decisions were made and kernel time has been spent,
   * the smem time per decision comes out negative; corrected it is zero.
   */
  lemma AsWrittenSmemRateNegative(last: Last, s: Snapshot)
    requires s.decisions > last.dc && s.kernelSeconds > 0.0
    ensures AdvanceAsWritten(last, s).0.smemPerDc < 0.0
    ensures last.smemTime == SmemTime ==> Advance(last, s).0.smemPerDc == 0.0
  {
    var x := AdvanceAsWritten(last, s).0;
    assert x.smemPerDc * (x.deltaDc as real) == -s.kernelSeconds;
  }

  /** Corrected, the same two samples report 0.5 s of kernel time and a zero smem rate. */
  lemma KernelColumnExampleCorrected()
    ensures Advance(Advance(Zero, ExampleFirst()).1, ExampleSecond()).0.kernel == 0.5
    ensures Advance(Advance(Zero, ExampleFirst()).1, ExampleSecond()).0.smemPerDc == 0.0
  {
    ConsecutiveDeltas(Zero, ExampleFirst(), ExampleSecond());
  }

  /**
   * Java truncates `-7 / 2` to `-3`, so the mean column is `-3.0`; Dafny's
   * Euclidean `/` would give `-4`.
   */
  lemma WmMeanTruncates()
    ensures WmMean(-7, 2) == -3.0
  {
  }
}

=== FILE: host.dfy ===
/**
 * A host driving a DataCollector: the calls an application makes on it, in
 * any order, and what every sequence of them keeps true of the PrintWriter.
 */
module Host {
  import opened Results
  import opened JavaInt
  import opened Schema
  import opened Deltas
  import opened Csv
  import opened DataCollector
  import PausableClock

  /** One call on the collector, with the clock reading and agent snapshot it sees. */
  datatype Event =
    | Bind(out: Option<Stream>)
    | AddSettings(text: Option<string>)
    | PeriodCycles(cycles: int32)
    | PeriodMillis(millis: int32)
    | Start(now: int)
    | Stop(now: int)
    | Update(now: int)
    | Gather(snapshot: Snapshot, now: int, timestamp: string)
    | FlushNow
    | ResetNow

  /** `collect` of the chosen build. */
  function CollectOf(c: Collector, s: Snapshot, now: int, timestamp: string, build: Build): Collector
  {
    if build == Corrected then Collect(c, s, now, timestamp) else CollectAsWritten(c, s, now, timestamp)
  }

  /** The collector after one call. */
  function Apply(c: Collector, e: Event, build: Build): (r: Collector)
    ensures Inv(c, build) ==> Inv(r, build)
  {
    match e
    case Bind(out) => SetOutputStream(c, out)
    case AddSettings(text) => SetAdditionalSettings(c, text)
    case PeriodCycles(cycles) => SetPeriodCycles(c, cycles)
    case PeriodMillis(millis) => SetPeriodMillis(c, millis)
    case Start(now) => OnStart(c, now)
    case Stop(now) => OnStop(c, now)
    case Update(now) => OnUpdateEvent(c, now).0
    case Gather(s, now, timestamp) => CollectOf(c, s, now, timestamp, build)
    case FlushNow => DataCollector.Flush(c)
    case ResetNow => Reset(c)
  }

  /** The collector after a sequence of calls. */
  function Run(c: Collector, events: seq<Event>, build: Build): Collector
    decreases |events|
  {
    if |events| == 0 then c else Run(Apply(c, events[0], build), events[1..], build)
  }

  /**
   * Whatever the calls, every PrintWriter opens with the header, carries the
   * settings field on its first row at most, and never claims to have
   * flushed more than it printed.
   */
  lemma {:induction false} RunKeepsInvariant(c: Collector, events: seq<Event>, build: Build)
    requires Inv(c, build)
    ensures Inv(Run(c, events, build), build)
    decreases |events|
  {
    if |events| > 0 {
      RunKeepsInvariant(Apply(c, events[0], build), events[1..], build);
    }
  }

  /** From construction on, the invariant holds after any sequence of calls. */
  lemma InvariantFromInit(events: seq<Event>, build: Build)
    ensures Inv(Run(Init(), events, build), build)
  {
    RunKeepsInvariant(Init(), events, build);
  }

  /** The current PrintWriter, if any, holds the header and nothing else. */
  predicate HeaderOnly(c: Collector)
  {
    c.pout.Some? ==> c.pout.value.lines == [HeaderLine(HeaderOf(AsWritten))]
  }

  /**
   * As written, no call sequence ever prints a data row or the settings
   * field: every PrintWriter prints the header line alone.
   */
  lemma {:induction false} AsWrittenNeverWritesRows(c: Collector, events: seq<Event>)
    requires HeaderOnly(c)
    ensures HeaderOnly(Run(c, events, AsWritten))
    decreases |events|
  {
    if |events| > 0 {
      ApplyKeepsHeaderOnly(c, events[0]);
      AsWrittenNeverWritesRows(Apply(c, events[0], AsWritten), events[1..]);
    }
  }

  /** One call of the build as written keeps every PrintWriter at the header alone. */
  lemma ApplyKeepsHeaderOnly(c: Collector, e: Event)
    requires HeaderOnly(c)
    ensures HeaderOnly(Apply(c, e, AsWritten))
  {
    match e
    case Gather(s, now, timestamp) =>
      assert Apply(c, e, AsWritten) == CollectAsWritten(c, s, now, timestamp);
    case _ =>
  }

  /** The two-call session that shows the difference: bind a stream, then collect once. */
  function Session(k: Stream, s: Snapshot, now: int, timestamp: string): seq<Event>
  {
    [Bind(Some(k)), Gather(s, now, timestamp)]
  }

  /**
   * After binding a stream and collecting one snapshot past the first
   * decision, the PrintWriter as written holds only the header.
   */
  lemma SessionRowsAsWritten(k: Stream, s: Snapshot, now: int, timestamp: string)
    requires s.decisions >= 1
    ensures var r := Run(Init(), Session(k, s, now, timestamp), AsWritten);
      r.pout.Some? && r.pout.value.lines == [HeaderLine(HeaderOf(AsWritten))]
  {
    var events := Session(k, s, now, timestamp);
    var bound := SetOutputStream(Init(), Some(k));
    assert Apply(Init(), events[0], AsWritten) == bound;
    assert events[1..] == [Gather(s, now, timestamp)];
    assert Run(bound, events[1..], AsWritten) == Apply(bound, events[1], AsWritten);
  }

  /**
   * The same session, repaired: the PrintWriter holds the header and one row
   * with the settings field.
   */
  lemma SessionRowsCorrected(k: Stream, s: Snapshot, now: int, timestamp: string)
    requires s.decisions >= 1
    ensures var r := Run(Init(), Session(k, s, now, timestamp), Corrected);
      && r.pout.Some? && |r.pout.value.lines| == 2
      && r.pout.value.lines[0] == HeaderLine(HeaderOf(Corrected))
      && HasSettings(r.pout.value.lines[1])
  {
    var events := Session(k, s, now, timestamp);
    var bound := SetOutputStream(Init(), Some(k));
    assert Apply(Init(), events[0], Corrected) == bound;
    assert events[1..] == [Gather(s, now, timestamp)];
    assert Run(bound, events[1..], Corrected) == Apply(bound, events[1], Corrected);
  }

  /**
   * Binding a stream other than the current one starts a new PrintWriter
   * (on that stream, even one bound earlier): the next enabled
   * `collect` writes the header first, and a row past the first decision
   * carries the settings field.
   */
  lemma RebindOpensNewWriter(c: Collector, k: Stream, s: Snapshot, now: int, timestamp: string)
    requires c.out != Some(k)
    ensures var r := Collect(SetOutputStream(c, Some(k)), s, now, timestamp);
      && r.out == Some(k) && r.pout.Some? && |r.pout.value.lines| >= 1
      && r.pout.value.lines[0] == HeaderLine(HeaderOf(Corrected))
      && (s.decisions >= 1 ==> |r.pout.value.lines| == 2 && HasSettings(r.pout.value.lines[1]))
  {
  }

  /**
   * A first pass that returns early, before the first decision, prints the
   * header but no row; the next row is no longer a first pass, so that
   * PrintWriter never prints the settings field.
   */
  lemma EarlyFirstPassLosesSettings(c: Collector, s1: Snapshot, s2: Snapshot, now1: int, now2: int, t1: string, t2: string)
    requires IsEnabled(c) && c.pout.None?
    requires s1.decisions < 1 && s2.decisions >= 1
    ensures var r := Collect(Collect(c, s1, now1, t1), s2, now2, t2);
      && r.pout.Some? && |r.pout.value.lines| == 2
      && r.pout.value.lines[0] == HeaderLine(HeaderOf(Corrected))
      && r.pout.value.lines[1].DataLine? && !HasSettings(r.pout.value.lines[1])
  {
  }

  /**
   * `reset` keeps the PrintWriter, so the next `collect` appends to the
   * same PrintWriter: no second header and no second settings field.
   */
  lemma ResetKeepsWriter(c: Collector, s: Snapshot, now: int, timestamp: string)
    requires Inv(c, Corrected) && c.pout.Some?
    ensures var r := Collect(Reset(c), s, now, timestamp);
      && c.pout.value.lines <= r.pout.value.lines
      && (forall i :: |c.pout.value.lines| <= i < |r.pout.value.lines| ==>
            r.pout.value.lines[i].DataLine? && !HasSettings(r.pout.value.lines[i]))
  {
    var z := Reset(c);
    assert Inv(z, Corrected);
  }
}

=== FILE: java_int.dfy ===
/**
 * Java's 32-bit `int` and its integer division, written out over Dafny's
 * unbounded integers. Dafny's `/` and `%` are Euclidean (the remainder is
 * never negative); Java's truncate toward zero (the remainder takes the sign
 * of the dividend).
 */
module JavaInt {

  const MinInt: int := -0x8000_0000
  const MaxInt: int := 0x7fff_ffff
  const IntRange: int := 0x1_0000_0000

  /** The values of a Java `int`. */
  type int32 = x: int | MinInt <= x <= MaxInt

  function Abs(x: int): nat
  {
    if x < 0 then -x else x
  }

  /** Two's-complement truncation of `x` to 32 bits. */
  function Wrap(x: int): (r: int32)
    ensures (x - r) % IntRange == 0
    ensures MinInt <= x <= MaxInt ==> r == x
  {
    var m := (x - MinInt) % IntRange;
    assert x - (m + MinInt) == IntRange * ((x - MinInt) / IntRange);
    m + MinInt
  }

  /** Java's `++x` on an `int`: one more, except that the largest value wraps to the smallest. */
  function Increment(x: int32): (r: int32)
    ensures x < MaxInt ==> r == x + 1
    ensures x == MaxInt ==> r == MinInt
  {
    Wrap(x + 1)
  }

  /** Truncation to 32 bits depends only on the value modulo 2^32. */
  lemma WrapCongruent(x: int, y: int)
    requires (x - y) % IntRange == 0
    ensures Wrap(x) == Wrap(y)
  {
    var k := (x - y) / IntRange;
    assert x - y == IntRange * k;
    var q, m := (y - MinInt) / IntRange, (y - MinInt) % IntRange;
    assert x - MinInt == IntRange * (q + k) + m;
    EuclidUnique(x - MinInt, IntRange, q + k, m);
  }

  /** Counting up in Java `int`s is counting up in integers and truncating: `++` commutes with `Wrap`. */
  lemma IncrementWrap(n: int)
    ensures Increment(Wrap(n)) == Wrap(n + 1)
  {
    var w: int := Wrap(n);
    NegDivides(n - w, IntRange);
    WrapCongruent(w + 1, n + 1);
  }

  /**
   * Java's `a / b`: the quotient rounded toward zero, so that the remainder
   * left over is smaller than the divisor and has the sign of the dividend.
   */
  function Quot(a: int, b: int): (q: int)
    requires b != 0
    ensures Abs(a - b * q) < Abs(b)
    ensures a >= 0 ==> a - b * q >= 0
    ensures a <= 0 ==> a - b * q <= 0
  {
    var q := if (a < 0) == (b < 0) then Abs(a) / Abs(b) else -(Abs(a) / Abs(b));
    QuotLeavesRem(a, b, q);
    q
  }

  /**
   * Java's `a % b`: the remainder with the sign of the dividend. It is zero
   * exactly when Dafny's Euclidean remainder is zero, that is, when `b`
   * divides `a`.
   */
  function Rem(a: int, b: int): (r: int)
    requires b != 0
    ensures r == a - b * Quot(a, b)
    ensures r == 0 <==> a % b == 0
  {
    QuotLeavesRem(a, b, Quot(a, b));
    DividesAbs(a, b);
    if a < 0 then -(Abs(a) % Abs(b)) else Abs(a) % Abs(b)
  }

  /** What is left of `a` after the truncated quotient is the signed remainder of the magnitudes. */
  lemma QuotLeavesRem(a: int, b: int, q: int)
    requires b != 0
    requires q == if (a < 0) == (b < 0) then Abs(a) / Abs(b) else -(Abs(a) / Abs(b))
    ensures a - b * q == if a < 0 then -(Abs(a) % Abs(b)) else Abs(a) % Abs(b)
    ensures Abs(a - b * q) < Abs(b)
    ensures a >= 0 ==> a - b * q >= 0
    ensures a <= 0 ==> a - b * q <= 0
  {
    var m := Abs(b);
    var n := Abs(a) / m;
    assert Abs(a) == m * n + Abs(a) % m;
    NegMul(m, n);
    if b < 0 {
      assert b == -m;
      if a < 0 {
        assert q == n;
        assert b * q == -(m * n);
      } else {
        assert q == -n;
        NegMul(-m, n);
        assert b * q == m * n;
      }
    } else {
      assert b == m;
      if a < 0 {
        assert q == -n;
        assert b * q == -(m * n);
      } else {
        assert q == n;
      }
    }
  }

  /** Euclidean division is unique: any such decomposition is Dafny's `/` and `%`. */
  lemma EuclidUnique(a: int, b: int, q: int, r: int)
    requires b > 0 && a == b * q + r && 0 <= r < b
    ensures a % b == r && a / b == q
  {
    var q0 := a / b;
    var r0 := a % b;
    assert a == b * q0 + r0;
    assert b * (q - q0) == r0 - r;
    if q - q0 >= 1 {
      MulAtLeast(b, q - q0);
    } else if q - q0 <= -1 {
      MulAtLeast(b, q0 - q);
    }
  }

  lemma MulAtLeast(b: int, d: int)
    ensures b > 0 && d >= 1 ==> b * d >= b
  {
  }

  lemma NegMul(x: int, y: int)
    ensures x * (-y) == (-x) * y == -(x * y)
  {
  }

  /** Negating the dividend keeps a zero remainder zero. */
  lemma NegDivides(a: int, m: int)
    requires m > 0
    requires a % m == 0
    ensures (-a) % m == 0
  {
    var q := a / m;
    assert a == m * q;
    assert -a == m * (-q) + 0;
    EuclidUnique(-a, m, -q, 0);
  }

  /** A Euclidean remainder of zero does not depend on the signs involved. */
  lemma DividesAbs(a: int, b: int)
    requires b != 0
    ensures a % b == 0 <==> Abs(a) % Abs(b) == 0
  {
    var m := Abs(b);
    RemAbsDivisor(a, b);
    if a < 0 {
      assert Abs(a) == -a;
      if a % m == 0 {
        NegDivides(a, m);
      }
      if (-a) % m == 0 {
        NegDivides(-a, m);
      }
    }
  }

  /** The Euclidean remainder ignores the divisor's sign. */
  lemma RemAbsDivisor(a: int, b: int)
    requires b != 0
    ensures a % b == a % Abs(b)
  {
    if b < 0 {
      var q := a / b;
      assert a == b * q + a % b;
      NegMul(-b, q);
      assert b * q == (-b) * (-q);
      EuclidUnique(a, -b, -q, a % b);
    }
  }
}

=== FILE: pausable_clock.dfy ===
/**
 * The wall clock of `onStart`, `onStop`, `reset` and `collect`: an offset
 * subtracted from the current time, grown on every restart by the length of
 * the pause, and a stop time whose value zero means "not stopped".
 * Times are milliseconds as `System.currentTimeMillis` returns them; the
 * reading is a parameter of every operation that needs it.
 */
module PausableClock {

  datatype Clock = Clock(offset: int, stopTime: int)

  /** What `reset` (and the constructor) leaves. */
  const Zero: Clock := Clock(0, 0)

  /** The clock counts as stopped while the stop time is non-zero. */
  predicate Paused(c: Clock)
  {
    c.stopTime != 0
  }

  /** Milliseconds of running time the clock reports at time `now`. */
  function ElapsedMillis(c: Clock, now: int): int
  {
    now - c.offset
  }

  /** The `wallClock` column: elapsed milliseconds as fractional seconds. */
  function WallClock(c: Clock, now: int): (r: real)
    ensures r * 1000.0 == ElapsedMillis(c, now) as real
  {
    (now - c.offset) as real / 1000.0
  }

  /**
   * `onStart`: the clock runs again and, at the restart instant, reports
   * what it reported at the stop instant, so the pause is left out. The
   * offset grows by `now - stopTime` even when the clock was not stopped,
   * that is by `now` itself.
   */
  function OnStart(c: Clock, now: int): (r: Clock)
    ensures !Paused(r)
    ensures ElapsedMillis(r, now) == ElapsedMillis(c, c.stopTime)
    ensures !Paused(c) ==> r.offset == c.offset + now
  {
    Clock(c.offset + (now - c.stopTime), 0)
  }

  /** `onStop`: records the stop instant and keeps the offset. */
  function OnStop(c: Clock, now: int): (r: Clock)
    ensures r.stopTime == now && r.offset == c.offset
    ensures now != 0 ==> Paused(r)
  {
    c.(stopTime := now)
  }

  /** One run of the agent: started at `start`, stopped at `stop`. */
  datatype Span = Span(start: int, stop: int)

  /** The clock after each span's `onStart` and `onStop`, in order. */
  function Replay(c: Clock, spans: seq<Span>): Clock
    decreases |spans|
  {
    if |spans| == 0 then c
    else Replay(OnStop(OnStart(c, spans[0].start), spans[0].stop), spans[1..])
  }

  /** The total running time of the spans. */
  function Total(spans: seq<Span>): int
  {
    if |spans| == 0 then 0 else (spans[0].stop - spans[0].start) + Total(spans[1..])
  }

  /**
   * Any number of start/stop pairs add exactly their summed running time to
   * what the clock reports at its stop instant: every pause is left out.
   */
  lemma {:induction false} ReplayAddsRunningTime(c: Clock, spans: seq<Span>)
    ensures var r := Replay(c, spans); ElapsedMillis(r, r.stopTime) == ElapsedMillis(c, c.stopTime) + Total(spans)
    decreases |spans|
  {
    if |spans| > 0 {
      var next := OnStop(OnStart(c, spans[0].start), spans[0].stop);
      assert ElapsedMillis(next, next.stopTime) == ElapsedMillis(c, c.stopTime) + (spans[0].stop - spans[0].start);
      ReplayAddsRunningTime(next, spans[1..]);
    }
  }

  /**
   * After `reset`, start/stop pairs, a restart at `resume` and a sample at
   * `now`, the clock reports the running time of the spans plus
   * `now - resume`. With one span `Span(t0, t1)` this is
   * `(t1 - t0) + (now - resume)`.
   */
  lemma {:induction false} ResumedClockExcludesPauses(spans: seq<Span>, resume: int, now: int)
    ensures WallClock(OnStart(Replay(Zero, spans), resume), now) * 1000.0
      == (Total(spans) + (now - resume)) as real
  {
    ReplayAddsRunningTime(Zero, spans);
    ResumeAdds(Replay(Zero, spans), resume, now);
  }

  /** After a restart, the clock reports its reading at the stop instant plus the time run since. */
  lemma ResumeAdds(c: Clock, resume: int, now: int)
    ensures WallClock(OnStart(c, resume), now) * 1000.0
      == (ElapsedMillis(c, c.stopTime) + (now - resume)) as real
  {
  }

  /**
   * The clock is not frozen while stopped: a reading taken during a pause
   * includes the pause so far, though a later restart takes it out again.
   */
  lemma PausedClockKeepsRunning(c: Clock, stop: int, later: int)
    ensures ElapsedMillis(OnStop(c, stop), later) == ElapsedMillis(c, stop) + (later - stop)
  {
  }
}

=== FILE: results.dfy ===
/**
 * Optional values (Java's nullable references) and results of operations
 * that can end in a Java exception.
 */
module Results {

  /** A nullable reference: `None` plays the part of Java's `null`. */
  datatype Option<+T> = None | Some(value: T)

  /** The value an operation returns, or the exception it throws. */
  datatype Result<+T, +E> = Success(value: T) | Failure(error: E)
}

=== FILE: sampling.dfy ===
/**
 * The sampling decision of `onUpdateEvent`: an invocation counter (a Java
 * `int`) and, in elapsed-time mode, the time of the last trigger. Both modes
 * share one record, as the Java fields do; switching modes resets neither
 * the counter nor the timer.
 */
module Sampling {
  import opened JavaInt

  datatype Mode = DecisionCycles | ElapsedTime

  datatype Schedule = Schedule(
    mode: Mode,
    periodCycles: int32,
    periodMillis: int32,
    count: int32,
    lastTimeMillis: int)

  /** What `onUpdateEvent` hands back: its boolean, or the ArithmeticException of `count % 0`. */
  datatype Answer = Returned(collect: bool) | DivideByZero

  /** The field initializers: cycle mode every 5000 calls, no time period yet. */
  const Initial: Schedule := Schedule(DecisionCycles, 5000, 0, 0, 0)

  /** The scheduler's share of `reset`: the counter and the elapsed-time timer go back to zero. */
  function Reset(s: Schedule): (r: Schedule)
    ensures r.count == 0 && r.lastTimeMillis == 0
    ensures r.mode == s.mode && r.periodCycles == s.periodCycles && r.periodMillis == s.periodMillis
  {
    s.(count := 0, lastTimeMillis := 0)
  }

  /** `setPeriodCycles`: cycle mode with the new period; counter and timer are kept. */
  function SetPeriodCycles(s: Schedule, cycles: int32): (r: Schedule)
    ensures r.mode == DecisionCycles && r.periodCycles == cycles
    ensures r.periodMillis == s.periodMillis && r.count == s.count && r.lastTimeMillis == s.lastTimeMillis
  {
    s.(periodCycles := cycles, mode := DecisionCycles)
  }

  /** `setPeriodMillis`: elapsed-time mode with the new period; counter and timer are kept. */
  function SetPeriodMillis(s: Schedule, millis: int32): (r: Schedule)
    ensures r.mode == ElapsedTime && r.periodMillis == millis
    ensures r.periodCycles == s.periodCycles && r.count == s.count && r.lastTimeMillis == s.lastTimeMillis
  {
    s.(periodMillis := millis, mode := ElapsedTime)
  }

  /**
   * `onUpdateEvent` with the clock reading `now` and whether a stream is
   * bound. The counter always advances by one (wrapping as a Java `int`);
   * the configuration never changes.
   */
  function OnUpdate(s: Schedule, enabled: bool, now: int): (r: (Schedule, Answer))
    ensures r.0.count == Increment(s.count)
    ensures r.0.mode == s.mode && r.0.periodCycles == s.periodCycles && r.0.periodMillis == s.periodMillis
    // disabled: nothing but the counter changes, and no sample is due
    ensures !enabled ==> r.1 == Returned(false) && r.0.lastTimeMillis == s.lastTimeMillis
    // cycle mode: due exactly when the new count is a multiple of the period
    ensures enabled && s.mode == DecisionCycles ==>
      && r.0.lastTimeMillis == s.lastTimeMillis
      && (s.periodCycles == 0 <==> r.1 == DivideByZero)
      && (s.periodCycles != 0 ==> r.1 == Returned(r.0.count % s.periodCycles == 0))
    // elapsed mode, unarmed: arm at `now`, not due
    ensures enabled && s.mode == ElapsedTime && s.lastTimeMillis == 0 ==>
      r == (s.(count := r.0.count, lastTimeMillis := now), Returned(false))
    // elapsed mode, armed: due once a whole period has passed, and then the mark moves by one period
    ensures enabled && s.mode == ElapsedTime && s.lastTimeMillis != 0 ==>
      && r.1.Returned?
      && (r.1.collect <==> now - s.lastTimeMillis >= s.periodMillis)
      && r.0.lastTimeMillis == s.lastTimeMillis + (if r.1.collect then s.periodMillis else 0)
  {
    var s := s.(count := Increment(s.count));
    if !enabled then (s, Returned(false))
    else match s.mode
      case DecisionCycles =>
        if s.periodCycles == 0 then (s, DivideByZero)
        else (s, Returned(Rem(s.count, s.periodCycles) == 0))
      case ElapsedTime =>
        if s.lastTimeMillis == 0 then (s.(lastTimeMillis := now), Returned(false))
        else if now - s.lastTimeMillis >= s.periodMillis then
          (s.(lastTimeMillis := s.lastTimeMillis + s.periodMillis), Returned(true))
        else (s, Returned(false))
  }

  /** One host call of `onUpdateEvent`. */
  datatype Call = Call(enabled: bool, now: int)

  /** The schedule and the answers after a sequence of calls. */
  function Updates(s: Schedule, calls: seq<Call>): (r: (Schedule, seq<Answer>))
    ensures |r.1| == |calls|
    decreases |calls|
  {
    if |calls| == 0 then (s, [])
    else
      var (t, answers) := Updates(s, calls[..|calls| - 1]);
      var last := calls[|calls| - 1];
      var (u, a) := OnUpdate(t, last.enabled, last.now);
      (u, answers + [a])
  }

  /** The number of answers that asked for a sample. */
  function Fired(answers: seq<Answer>): nat
  {
    if |answers| == 0 then 0
    else Fired(answers[..|answers| - 1]) + (if answers[|answers| - 1] == Returned(true) then 1 else 0)
  }

  /**
   * Cycle mode from a zeroed counter: the i-th call (counting from one) asks
   * for a sample exactly when it found a stream bound and i is a multiple of
   * the period, whatever the enabled/disabled pattern, for as long as the
   * counter has not wrapped.
   */
  lemma {:induction false} CycleCadence(s: Schedule, calls: seq<Call>)
    requires s.mode == DecisionCycles && s.periodCycles != 0 && s.count == 0
    requires |calls| <= MaxInt
    ensures Updates(s, calls).0.count == |calls|
    ensures forall i :: 0 <= i < |calls| ==>
      Updates(s, calls).1[i] == Returned(calls[i].enabled && (i + 1) % s.periodCycles == 0)
    decreases |calls|
  {
    if |calls| > 0 {
      var prefix := calls[..|calls| - 1];
      CycleCadence(s, prefix);
      var (t, answers) := Updates(s, prefix);
      var last := calls[|calls| - 1];
      assert t.mode == s.mode && t.periodCycles == s.periodCycles by { UpdatesKeepConfig(s, prefix); }
      var (u, a) := OnUpdate(t, last.enabled, last.now);
      assert u.count == |calls|;
      assert a == Returned(last.enabled && |calls| % s.periodCycles == 0);
      assert Updates(s, calls).1 == answers + [a];
      forall i | 0 <= i < |calls|
        ensures Updates(s, calls).1[i] == Returned(calls[i].enabled && (i + 1) % s.periodCycles == 0)
      {
        if i < |calls| - 1 {
          assert calls[i] == prefix[i];
        }
      }
    }
  }

  /**
   * Cycle mode from a zeroed counter, for any number of calls: after n calls
   * the counter holds n truncated to 32 bits, and the i-th call (counting
   * from one) asks for a sample exactly when it found a stream bound and the
   * period divides i truncated to 32 bits. Past 2^31 - 1 calls the counter
   * wraps to negative values, and the cadence follows the wrapped count.
   */
  lemma {:induction false} CycleCadenceWrapped(s: Schedule, calls: seq<Call>)
    requires s.mode == DecisionCycles && s.periodCycles != 0 && s.count == 0
    ensures Updates(s, calls).0.count == Wrap(|calls|)
    ensures forall i :: 0 <= i < |calls| ==>
      Updates(s, calls).1[i] == Returned(calls[i].enabled && Wrap(i + 1) % s.periodCycles == 0)
    decreases |calls|
  {
    if |calls| > 0 {
      var prefix := calls[..|calls| - 1];
      CycleCadenceWrapped(s, prefix);
      var (t, answers) := Updates(s, prefix);
      var last := calls[|calls| - 1];
      assert t.mode == s.mode && t.periodCycles == s.periodCycles by { UpdatesKeepConfig(s, prefix); }
      var (u, a) := OnUpdate(t, last.enabled, last.now);
      IncrementWrap(|calls| - 1);
      assert u.count == Wrap(|calls|);
      assert a == Returned(last.enabled && Wrap(|calls|) % s.periodCycles == 0);
      assert Updates(s, calls).1 == answers + [a];
      forall i | 0 <= i < |calls|
        ensures Updates(s, calls).1[i] == Returned(calls[i].enabled && Wrap(i + 1) % s.periodCycles == 0)
      {
        if i < |calls| - 1 {
          assert calls[i] == prefix[i];
        }
      }
    }
  }

  /** The configuration is the same after any sequence of calls. */
  lemma {:induction false} UpdatesKeepConfig(s: Schedule, calls: seq<Call>)
    ensures var t := Updates(s, calls).0;
      t.mode == s.mode && t.periodCycles == s.periodCycles && t.periodMillis == s.periodMillis
    decreases |calls|
  {
    if |calls| > 0 {
      UpdatesKeepConfig(s, calls[..|calls| - 1]);
    }
  }

  /**
   * Elapsed-time mode once armed at `t0`, with a non-negative period: the
   * mark sits exactly one period further for each sample asked for, however
   * irregular the call times and whichever calls found no stream bound (those
   * leave the mark alone). The cadence is fixed by `t0` and the period, so it
   * does not drift.
   */
  lemma {:induction false} ElapsedCadence(s: Schedule, calls: seq<Call>)
    requires s.mode == ElapsedTime && s.lastTimeMillis > 0 && s.periodMillis >= 0
    ensures var (t, answers) := Updates(s, calls);
      && (forall i :: 0 <= i < |answers| ==> answers[i].Returned?)
      && t.lastTimeMillis == s.lastTimeMillis + s.periodMillis * Fired(answers)
    decreases |calls|
  {
    if |calls| > 0 {
      var prefix := calls[..|calls| - 1];
      ElapsedCadence(s, prefix);
      UpdatesKeepConfig(s, prefix);
      var (t, answers) := Updates(s, prefix);
      var last := calls[|calls| - 1];
      var (u, a) := OnUpdate(t, last.enabled, last.now);
      var p, f := s.periodMillis as int, Fired(answers);
      assert t.lastTimeMillis == s.lastTimeMillis + p * f;
      MulNonNegative(p, f);
      assert t.lastTimeMillis > 0;
      assert (answers + [a])[..|answers|] == answers;
      assert Updates(s, calls) == (u, answers + [a]);
      if a == Returned(true) {
        assert Fired(answers + [a]) == f + 1;
        assert u.lastTimeMillis == s.lastTimeMillis + p * f + p;
        Distribute(p, f);
      } else {
        assert Fired(answers + [a]) == f;
      }
    }
  }

  lemma MulNonNegative(p: int, f: nat)
    requires p >= 0
    ensures p * f >= 0
  {
  }

  lemma Distribute(p: int, f: int)
    ensures p * (f + 1) == p * f + p
  {
  }
}

=== FILE: schema.dfy ===
/**
 * The CSV column schema that DataCollector's static initializer builds with
 * `addStat`: a header text of column names and a `java.util.Formatter`
 * pattern with one conversion per column, each followed by a comma.
 * `Format` models how `String.format` consumes that pattern.
 */
module Schema {
  import opened Results

  /** The three conversions the pattern uses: `%s`, `%f` and `%d`. */
  datatype Conversion = Str | Float | Decimal

  /** The stats lines 231-263 add, in order, TODO lines left out. */
  datatype Column =
    | Agent
    | WallClock
    | DcNum
    | KernelMsec
    | AvgMsecDc
    | CpuMsec
    | PfTotal
    | AverageMsecPf
    | WmCurrent
    | WmMean
    | WmMax
    | WmAdditions
    | WmRemovals
    | SmemTime
    | SmemMaxTimeCycle
    | SmemMaxTimeValue
    | SmemRetrieves
    | SmemQueries
    | SmemStores
    | SmemTimePerDc

  /** A format argument, as Java boxes it: a String, a Double or a Long. */
  datatype Value = Text(s: string) | Double(x: real) | Long(n: int)

  /** The exceptions `String.format` throws on a pattern/argument mismatch. */
  datatype FormatError =
    | MissingFormatArgument(index: nat)
    | IllegalFormatConversion(index: nat)

  function Spec(c: Conversion): string
  {
    match c
    case Str => "%s"
    case Float => "%f"
    case Decimal => "%d"
  }

  /** Whether a conversion accepts an argument: `%s` takes anything, `%f` only a Double, `%d` only a Long. */
  predicate Accepts(c: Conversion, v: Value)
  {
    match c
    case Str => true
    case Float => v.Double?
    case Decimal => v.Long?
  }

  /** The header name `addStat` gives each stat. */
  function Name(c: Column): string
  {
    match c
    case Agent => "agent"
    case WallClock => "wall clock"
    case DcNum => "dc num"
    case KernelMsec => "kernel msec"
    case AvgMsecDc => "avg msec/dc"
    case CpuMsec => "cpu msec"
    case PfTotal => "pf total"
    case AverageMsecPf => "average msec/pf"
    case WmCurrent => "wm current"
    case WmMean => "wm mean"
    case WmMax => "wm max"
    case WmAdditions => "wm additions"
    case WmRemovals => "wm removals"
    case SmemTime => "smem time"
    case SmemMaxTimeCycle => "smem max time cycle"
    case SmemMaxTimeValue => "smem max time value"
    case SmemRetrieves => "smem retrieves"
    case SmemQueries => "smem queries"
    case SmemStores => "smem stores"
    case SmemTimePerDc => "smem time per dc"
  }

  /** The conversion `addStat` gives each stat. */
  function ConversionOf(c: Column): Conversion
  {
    match c
    case Agent => Str
    case WallClock => Float
    case DcNum => Decimal
    case KernelMsec => Float
    case AvgMsecDc => Float
    case CpuMsec => Float
    case PfTotal => Decimal
    case AverageMsecPf => Float
    case WmCurrent => Decimal
    case WmMean => Float
    case WmMax => Decimal
    case WmAdditions => Decimal
    case WmRemovals => Decimal
    case SmemTime => Float
    case SmemMaxTimeCycle => Decimal
    case SmemMaxTimeValue => Float
    case SmemRetrieves => Decimal
    case SmemQueries => Decimal
    case SmemStores => Decimal
    case SmemTimePerDc => Float
  }

  /** The stats in the order the static initializer adds them. */
  const WrittenColumns: seq<Column> := [
    Agent, WallClock, DcNum, KernelMsec,
    AvgMsecDc, CpuMsec, PfTotal, AverageMsecPf,
    WmCurrent, WmMean, WmMax, WmAdditions,
    WmRemovals, SmemTime, SmemMaxTimeCycle, SmemMaxTimeValue,
    SmemRetrieves, SmemQueries, SmemStores, SmemTimePerDc
  ]

  /**
   * The corrected schema: the two smem max-time stats, whose values are
   * never passed to `String.format`, are dropped like the other TODO stats.
   */
  const Columns: seq<Column> := WrittenColumns[..14] + WrittenColumns[16..]

  function Names(cols: seq<Column>): (r: seq<string>)
    ensures |r| == |cols|
    ensures forall i :: 0 <= i < |cols| ==> r[i] == Name(cols[i])
  {
    seq(|cols|, i requires 0 <= i < |cols| => Name(cols[i]))
  }

  function Specs(cols: seq<Column>): (r: seq<string>)
    ensures |r| == |cols|
    ensures forall i :: 0 <= i < |cols| ==> r[i] == Spec(ConversionOf(cols[i]))
  {
    seq(|cols|, i requires 0 <= i < |cols| => Spec(ConversionOf(cols[i])))
  }

  function Conversions(cols: seq<Column>): (r: seq<Conversion>)
    ensures |r| == |cols|
    ensures forall i :: 0 <= i < |cols| ==> r[i] == ConversionOf(cols[i])
  {
    seq(|cols|, i requires 0 <= i < |cols| => ConversionOf(cols[i]))
  }

  /** Each part followed by one comma. */
  function Terminated(parts: seq<string>): string
  {
    if |parts| == 0 then "" else parts[0] + "," + Terminated(parts[1..])
  }

  /** The header and format builders of the static initializer. */
  datatype Builders = Builders(header: string, format: string)

  /** One `addStat`: append the header name and the format conversion, each with a comma. */
  function AddStat(b: Builders, header: string, format: string): Builders
  {
    Builders(b.header + header + ",", b.format + format + ",")
  }

  /** `addStat` applied to each header/format pair in turn. */
  function AddStats(b: Builders, headers: seq<string>, formats: seq<string>): Builders
    requires |headers| == |formats|
    decreases |headers|
  {
    if |headers| == 0 then b else AddStats(AddStat(b, headers[0], formats[0]), headers[1..], formats[1..])
  }

  /** The builders once every column has been added. */
  function Built(cols: seq<Column>): Builders
  {
    AddStats(Builders("", ""), Names(cols), Specs(cols))
  }

  /** HEADER: every column name with its comma, then "settings". */
  function HeaderText(cols: seq<Column>): string
  {
    Built(cols).header + "settings"
  }

  /** FORMAT: every conversion with its comma. */
  function FormatText(cols: seq<Column>): string
  {
    Built(cols).format
  }

  /** The builders after the `addStat` calls hold exactly the comma-terminated names and conversions. */
  lemma {:induction false} AddStatsTerminates(b: Builders, headers: seq<string>, formats: seq<string>)
    requires |headers| == |formats|
    ensures AddStats(b, headers, formats) == Builders(b.header + Terminated(headers), b.format + Terminated(formats))
    decreases |headers|
  {
    if |headers| == 0 {
      assert b.header + Terminated(headers) == b.header;
      assert b.format + Terminated(formats) == b.format;
    } else {
      var next := AddStat(b, headers[0], formats[0]);
      assert AddStats(b, headers, formats) == AddStats(next, headers[1..], formats[1..]);
      AddStatsTerminates(next, headers[1..], formats[1..]);
      assert Terminated(headers) == headers[0] + "," + Terminated(headers[1..]);
      assert Terminated(formats) == formats[0] + "," + Terminated(formats[1..]);
      AppendAssoc(b.header, headers[0] + ",", Terminated(headers[1..]));
      AppendAssoc(b.format, formats[0] + ",", Terminated(formats[1..]));
    }
  }

  lemma AppendAssoc(a: string, b: string, c: string)
    ensures a + b + c == a + (b + c)
  {
  }

  /** Splits a CSV line at every comma. */
  function Split(s: string): (r: seq<string>)
    ensures |r| >= 1
  {
    if |s| == 0 then [""]
    else if s[0] == ',' then [""] + Split(s[1..])
    else var t := Split(s[1..]); [[s[0]] + t[0]] + t[1..]
  }

  lemma {:induction false} SplitField(field: string, rest: string)
    requires ',' !in field
    ensures Split(field + "," + rest) == [field] + Split(rest)
    decreases |field|
  {
    if |field| == 0 {
      assert field + "," + rest == [','] + rest;
    } else {
      var s := field + "," + rest;
      SplitField(field[1..], rest);
      assert s[1..] == field[1..] + "," + rest;
      var t := Split(s[1..]);
      assert t == [field[1..]] + Split(rest);
      assert [s[0]] + t[0] == field;
    }
  }

  lemma {:induction false} SplitWhole(field: string)
    requires ',' !in field
    ensures Split(field) == [field]
    decreases |field|
  {
    if |field| > 0 {
      SplitWhole(field[1..]);
      assert [field[0]] + field[1..] == field;
    }
  }

  /** No field contains a comma. */
  predicate CommaFree(fields: seq<string>)
  {
    forall i :: 0 <= i < |fields| ==> ',' !in fields[i]
  }

  lemma {:induction false} SplitTerminated(fields: seq<string>, last: string)
    requires CommaFree(fields)
    ensures Split(Terminated(fields) + last) == fields + Split(last)
    decreases |fields|
  {
    if |fields| == 0 {
      assert Terminated(fields) + last == last;
      assert fields + Split(last) == Split(last);
    } else {
      var first, others := fields[0], fields[1..];
      var rest := Terminated(others) + last;
      CommaFreeTail(fields);
      SplitTerminated(others, last);
      TerminatedCons(fields, last);
      SplitField(first, rest);
      ConsAppend(fields, Split(last));
    }
  }

  lemma ConsAppend(fields: seq<string>, tail: seq<string>)
    requires |fields| > 0
    ensures [fields[0]] + (fields[1..] + tail) == fields + tail
  {
    assert fields == [fields[0]] + fields[1..];
  }

  lemma CommaFreeTail(fields: seq<string>)
    requires CommaFree(fields) && |fields| > 0
    ensures ',' !in fields[0] && CommaFree(fields[1..])
  {
    forall i | 0 <= i < |fields| - 1 ensures ',' !in fields[1..][i] {
      assert fields[1..][i] == fields[i + 1];
    }
  }

  lemma TerminatedCons(fields: seq<string>, last: string)
    requires |fields| > 0
    ensures Terminated(fields) + last == fields[0] + "," + (Terminated(fields[1..]) + last)
  {
    AppendAssoc(fields[0] + ",", Terminated(fields[1..]), last);
  }

  /**
   * The header cells are the column names in order, then "settings", as
   * long as no name contains a comma.
   */
  lemma {:induction false} HeaderCells(cols: seq<Column>)
    requires CommaFree(Names(cols))
    ensures Split(HeaderText(cols)) == Names(cols) + ["settings"]
  {
    AddStatsTerminates(Builders("", ""), Names(cols), Specs(cols));
    var names := Names(cols);
    assert HeaderText(cols) == Terminated(names) + "settings";
    SplitTerminated(names, "settings");
    SplitWhole("settings");
  }

  /** No written name contains a comma. */
  lemma NameHasNoComma(c: Column)
    ensures ',' !in Name(c)
  {
    if FirstHalf(c) {
      EarlyNameHasNoComma(c);
    } else {
      LateNameHasNoComma(c);
    }
  }

  /** The first ten stats, so that the name lemmas each face half the literals. */
  predicate FirstHalf(c: Column)
  {
    c.Agent? || c.WallClock? || c.DcNum? || c.KernelMsec? || c.AvgMsecDc?
    || c.CpuMsec? || c.PfTotal? || c.AverageMsecPf? || c.WmCurrent? || c.WmMean?
  }

  lemma EarlyNameHasNoComma(c: Column)
    requires FirstHalf(c)
    ensures ',' !in Name(c)
  {
  }

  lemma LateNameHasNoComma(c: Column)
    requires !FirstHalf(c)
    ensures ',' !in Name(c)
  {
  }

  /**
   * The stat table of the static initializer: twenty stats, each with the
   * conversion its `addStat` call gives it, in order.
   */
  lemma WrittenConversions()
    ensures |WrittenColumns| == 20
    ensures Conversions(WrittenColumns) == [
      Str, Float, Decimal, Float, Float,
      Float, Decimal, Float, Decimal, Float,
      Decimal, Decimal, Decimal, Float, Decimal,
      Float, Decimal, Decimal, Decimal, Float]
  {
  }

  /** The header names of the twenty stats, in `addStat` order. */
  lemma WrittenNames()
    ensures Names(WrittenColumns) == EarlyNames + LateNames
  {
    EarlyWrittenNames();
    LateWrittenNames();
    assert WrittenColumns == WrittenColumns[..10] + WrittenColumns[10..];
    NamesAppend(WrittenColumns[..10], WrittenColumns[10..]);
  }

  const EarlyNames: seq<string> := [
    "agent", "wall clock", "dc num", "kernel msec", "avg msec/dc",
    "cpu msec", "pf total", "average msec/pf", "wm current", "wm mean"]

  const LateNames: seq<string> := [
    "wm max", "wm additions", "wm removals", "smem time", "smem max time cycle",
    "smem max time value", "smem retrieves", "smem queries", "smem stores", "smem time per dc"]

  lemma EarlyWrittenNames()
    ensures Names(WrittenColumns[..10]) == EarlyNames
  {
  }

  lemma LateWrittenNames()
    ensures Names(WrittenColumns[10..]) == LateNames
  {
  }

  lemma NamesAppend(a: seq<Column>, b: seq<Column>)
    ensures Names(a + b) == Names(a) + Names(b)
  {
  }

  /** No column name contains a comma, so a header splits back into its names. */
  lemma NamesHaveNoComma(cols: seq<Column>)
    ensures CommaFree(Names(cols))
  {
    forall i | 0 <= i < |cols| ensures ',' !in Names(cols)[i] {
      NameHasNoComma(cols[i]);
    }
  }

  function SpecConversion(ch: char): Option<Conversion>
  {
    if ch == 's' then Some(Str)
    else if ch == 'f' then Some(Float)
    else if ch == 'd' then Some(Decimal)
    else None
  }

  /** Reads a pattern of comma-terminated `%s`, `%f`, `%d` conversions back. */
  function ParseFormat(s: string): Option<seq<Conversion>>
    decreases |s|
  {
    if |s| == 0 then Some([])
    else if |s| < 3 || s[0] != '%' || s[2] != ',' || SpecConversion(s[1]).None? then None
    else match ParseFormat(s[3..])
      case None => None
      case Some(cs) => Some([SpecConversion(s[1]).value] + cs)
  }

  /** FORMAT carries exactly one conversion per column, in column order. */
  lemma {:induction false} FormatConversions(cols: seq<Column>)
    ensures ParseFormat(FormatText(cols)) == Some(Conversions(cols))
  {
    AddStatsTerminates(Builders("", ""), Names(cols), Specs(cols));
    assert "" + Terminated(Specs(cols)) == Terminated(Specs(cols));
    ParseSpecs(Specs(cols), Conversions(cols));
  }

  /** Comma-terminated specifiers read back as their conversions. */
  lemma {:induction false} ParseSpecs(parts: seq<string>, convs: seq<Conversion>)
    requires |parts| == |convs|
    requires forall i :: 0 <= i < |parts| ==> parts[i] == Spec(convs[i])
    ensures ParseFormat(Terminated(parts)) == Some(convs)
    decreases |parts|
  {
    if |parts| > 0 {
      var rest := Terminated(parts[1..]);
      assert forall i :: 0 <= i < |parts| - 1 ==> parts[1..][i] == parts[i + 1];
      ParseSpecs(parts[1..], convs[1..]);
      assert Terminated(parts) == Spec(convs[0]) + "," + rest;
      ParseOne(convs[0], rest);
      assert convs == [convs[0]] + convs[1..];
    }
  }

  /** One conversion and its comma are read back, then the rest of the pattern. */
  lemma ParseOne(c: Conversion, rest: string)
    ensures ParseFormat(Spec(c) + "," + rest) ==
      match ParseFormat(rest)
      case None => None
      case Some(cs) => Some([c] + cs)
  {
    var s := Spec(c) + "," + rest;
    assert s[3..] == rest;
  }

  /**
   * `String.format(pattern, args)` over a pattern of conversions: it prints
   * one argument per conversion, left to right, ignores surplus arguments,
   * and throws at the first conversion that has no argument or cannot take
   * the one it gets.
   */
  function Format(convs: seq<Conversion>, args: seq<Value>): (r: Result<seq<Value>, FormatError>)
    ensures r.Success? <==>
      |convs| <= |args| && forall i :: 0 <= i < |convs| ==> Accepts(convs[i], args[i])
    ensures r.Success? ==> r.value == args[..|convs|]
    ensures r.Failure? ==>
      && r.error.index < |convs|
      && r.error.index <= |args|
      && (forall j :: 0 <= j < r.error.index ==> Accepts(convs[j], args[j]))
      && (r.error.MissingFormatArgument? <==> r.error.index >= |args|)
      && (r.error.IllegalFormatConversion? ==> !Accepts(convs[r.error.index], args[r.error.index]))
  {
    FormatFrom(convs, args, 0)
  }

  /** `Format` from the conversion at index `k` on. */
  function FormatFrom(convs: seq<Conversion>, args: seq<Value>, k: nat): (r: Result<seq<Value>, FormatError>)
    requires k <= |convs| && k <= |args|
    ensures r.Success? <==>
      |convs| <= |args| && forall i :: k <= i < |convs| ==> Accepts(convs[i], args[i])
    ensures r.Success? ==> r.value == args[k..|convs|]
    ensures r.Failure? ==>
      && k <= r.error.index < |convs|
      && r.error.index <= |args|
      && (forall j :: k <= j < r.error.index ==> Accepts(convs[j], args[j]))
      && (r.error.MissingFormatArgument? <==> r.error.index >= |args|)
      && (r.error.IllegalFormatConversion? ==> !Accepts(convs[r.error.index], args[r.error.index]))
    decreases |convs| - k
  {
    if k == |convs| then Success([])
    else if k == |args| then Failure(MissingFormatArgument(k))
    else if !Accepts(convs[k], args[k]) then Failure(IllegalFormatConversion(k))
    else match FormatFrom(convs, args, k + 1)
      case Success(vs) => Success([args[k]] + vs)
      case Failure(e) => Failure(e)
  }
}
